=== FILE: README.md ===
# manimator: a Dafny model of the tool bridge and the render pipeline

manimator turns a plain-language description into a Manim animation. A
command-line client asks a language model for Manim code and sends that code
to a tool server. The server writes the code to a script, finds the scene
class, renders it, and replies with the path of the video. This project
models the logic that sits between those services, and proves what it
promises:

- **Tool schema bridge** (`Schema`). `clean_schema` strips the
  presentation-only `"title"` keyword from a tool's input schema, recursing
  into the values of a `"properties"` mapping. The `"title"` keyword is
  defined in section 9.1 of JSON Schema Validation, draft 2020-12.
  `convert_mcp_tools_to_gemini` wraps every tool as a one-declaration tool
  for the language model.
- **Client text handling**. `CodeFences` models stripping a Markdown
  `python` fence from generated code. `ToolReply` models reading the
  server's `Success:` reply. `Prompt` models sorting prompt lines into exit,
  skip or request, and the prompt loop itself.
- **Entry-point extraction** (`SceneRegex`). The pattern
  `class\s+(\w+)\s*\(\s*[A-Za-z0-9_]*Scene\s*\)\s*:` is searched with
  `re.search`. Its meaning is given as recursive predicates that follow
  Python's backtracking semantics. A hand-written greedy matcher is proved
  equal to that meaning. `RegexExamples` holds worked cases.
- **The server** (`FileSystem`, `Server`). The file system is an abstract
  tree of files and directories, with `shutil.rmtree`,
  `os.makedirs(exist_ok=True)` and file writing. `execute_manim_code` is a
  linear state machine over that tree: reset, write, extract, load, render,
  discover. Loading, rendering and the walk order are oracle values.
  `cleanup_manim_temp_dir` is a two-branch operation on the same tree.
- **Both sides together** (`EndToEnd`). These lemmas say what the client
  makes of every reply the server can give.

`clean_schema` recurses only into the values of a `"properties"` mapping. A
title under `"items"` or `"anyOf"` is kept (see
`Schema.CleanKeepsOtherMembers`).

When the render leaves no video, the server still replies `Success:`, with
the workspace path and ` (no mp4 found)`. The client reports
`<workspace> (no mp4 found)` as the saved path (see
`EndToEnd.ClientTakesNoVideoNoteAsPath`).

## Model

| member | source | states |
|---|---|---|
| Text.Strip | client/manim_mcp_client.py:91 | The stripped text has no whitespace at either end and is no longer than the input. |
| Text.StripCharacterised | client/manim_mcp_client.py:91 | `Strip(s)` is the one string got from `s` by cutting off a whitespace prefix and a whitespace suffix so that no outer whitespace remains, which is what `str.strip()` does. |
| Text.StripIdempotent | client/manim_mcp_client.py:132 | Stripping twice is stripping once. |
| Text.Lower | client/manim_mcp_client.py:133 | `lower()` keeps the length and leaves no capital letter. Each capital `A`-`Z` becomes the small letter 32 code points above it, and every other character is kept. |
| Text.LowerFixedExactly | client/manim_mcp_client.py:133 | Lower-casing leaves a string unchanged exactly when it has no capital letter. |
| Text.LowerIdempotent | client/manim_mcp_client.py:133 | Lower-casing twice is lower-casing once. |
| Schema.Clean | client/manim_mcp_client.py:21-27 | A non-mapping comes back unchanged. A mapping keeps exactly its keys minus `"title"`, and the result can be cleaned again without raising. |
| Schema.CleanMembers | client/manim_mcp_client.py:22-26 | The cleaned members carry exactly the original keys without `"title"`, and none of them is `"title"`. |
| Schema.CleanValues | client/manim_mcp_client.py:25-26 | The values of `"properties"` come back in the same order under the same keys, and value `i` of the result is `Clean` of value `i` of the input. |
| Schema.CleanSchema | client/manim_mcp_client.py:21-27 | This is `clean_schema` as the source runs it: it drops `"title"`, fails at `.items()` when `"properties"` is not a mapping, cleans each value, and ends at the first failure. It returns normally exactly when `Cleanable` holds, and its result is then `Clean`'s. |
| Schema.PropertiesValuesUntitled | client/manim_mcp_client.py:23-26 | In the cleaned `"properties"` mapping, no value that is itself a mapping has a `"title"` key. |
| Schema.CleanKeepsOtherMembers | client/manim_mcp_client.py:23-26 | Every key other than `"title"` and `"properties"` keeps its value unchanged, including `"type"`, `"required"` and nested `"items"`/`"anyOf"` schemas with their own titles. |
| Schema.CleanProperties | client/manim_mcp_client.py:24-26 | A `"properties"` mapping survives, and becomes its values cleaned under the same keys in the same order. |
| Schema.PropertiesKeysKept | client/manim_mcp_client.py:24-26 | The key set of `"properties"` is the same before and after cleaning. |
| Schema.CleanIdempotent | client/manim_mcp_client.py:21-27 | Cleaning twice is cleaning once. |
| Schema.ConvertTools | client/manim_mcp_client.py:30-40 | With no failure there is one wrapper per tool, in order. Wrapper `i` holds exactly one declaration with tool `i`'s name and description and `clean_schema` of its input schema. The conversion fails exactly when some tool's schema makes `clean_schema` raise. |
| CodeFences.DropOpener | client/manim_mcp_client.py:92-93 | When the text starts with the 9-character `python` fence, the text is that fence followed by the result. Otherwise the text is kept. |
| CodeFences.DropCloser | client/manim_mcp_client.py:94-95 | When the text ends with the 3-character closing fence, the text is the result followed by that fence. Otherwise the text is kept. |
| CodeFences.StripFencesSpec | client/manim_mcp_client.py:91-95 | The stripped reply is the returned code between the fences that were removed. The opening fence is removed exactly when the stripped text starts with it. The closing fence is removed exactly when what follows the opener ends with it. |
| CodeFences.StripFencesRoundTrip | client/manim_mcp_client.py:91-95 | Fencing any body and stripping the fences gives the body back verbatim, including a newline right after the opening fence. |
| CodeFences.StripFencesKeepsOtherOpeners | client/manim_mcp_client.py:92-95 | Text whose stripped form does not start with the `python` fence keeps its start. This covers a bare three-backtick opener or another language's fence. At most the 3 closing characters are cut from the stripped text. |
| CodeFences.StripFencesUnfenced | client/manim_mcp_client.py:91-95 | Text with neither fence comes back as its stripped form. |
| CodeFences.StripFencesOnce | client/manim_mcp_client.py:92-93 | Only one opening fence is removed: a doubled fence leaves the inner one in place. |
| ToolReply.FindFrom | client/manim_mcp_client.py:107 | The first occurrence of the separator at or after a position, or none when it occurs nowhere there. |
| ToolReply.AfterFirstSpec | client/manim_mcp_client.py:107 | For a non-empty separator, such as the `Success:` passed at line 107, `split(sep, 1)[-1]` is the text after the leftmost occurrence of the separator, and the whole text when the separator does not occur. |
| ToolReply.ParseReply | client/manim_mcp_client.py:102-107 | A reply not starting with `Success:` yields no path. Any other reply yields the text after the 8-character tag, stripped. |
| ToolReply.ParseReplyRoundTrip | client/manim_mcp_client.py:102-107 | For every path without outer whitespace, parsing `Success:` followed by the path returns that path. |
| Prompt.Classify | client/manim_mcp_client.py:132-137 | After stripping, a line that lower-cases to `exit` or `quit` ends the loop, and an empty line is skipped. Both conditions are if-and-only-if. Every other line is a request whose description is the stripped line. |
| Prompt.ClassifyRequestStable | client/manim_mcp_client.py:132-137 | Typing a request's description again gives the same request. |
| Prompt.ClassifyUpperExit | client/manim_mcp_client.py:133 | `EXIT` ends the loop: the exit words are matched in any letter case. |
| Prompt.ClassifyPaddedQuit | client/manim_mcp_client.py:132-133 | `  Quit\n` ends the loop: surrounding whitespace is ignored. |
| Prompt.ClassifyExitNowIsRequest | client/manim_mcp_client.py:133-137 | ` exit now ` is the request `exit now`: only the whole word ends the loop. |
| Prompt.Session | client/manim_mcp_client.py:130-137 | The descriptions dispatched are no more than the lines read, and each one is a request line in its own right. |
| Prompt.SessionStopsAtExit | client/manim_mcp_client.py:133-134 | Nothing typed after an exit word is dispatched. |
| Prompt.SessionUpToExit | client/manim_mcp_client.py:130-137 | For lines typed before the first exit word, every request among them is dispatched in order, and nothing typed after the exit word is. |
| Prompt.SessionDispatchesEveryRequest | client/manim_mcp_client.py:135-137 | Without an exit word, every non-blank line is dispatched, in order. |
| SceneRegex.ColonCorrect | manim-mcp-server/src/manim_server.py:36 | The matcher's test for `\s*:` agrees with the pattern's meaning. |
| SceneRegex.CloseCorrect | manim-mcp-server/src/manim_server.py:36 | The matcher's test for `\s*\)\s*:` agrees with the pattern's meaning. |
| SceneRegex.BaseCorrect | manim-mcp-server/src/manim_server.py:36 | Taking the longest identifier run and checking that it ends in `Scene` agrees with the backtracking meaning of `[A-Za-z0-9_]*Scene\s*\)\s*:`. |
| SceneRegex.ParenCorrect | manim-mcp-server/src/manim_server.py:36 | The matcher's test for the text after `(` agrees with the pattern's meaning. |
| SceneRegex.OpenCorrect | manim-mcp-server/src/manim_server.py:36 | The matcher's test for `\s*\(` and all that follows agrees with the pattern's meaning. |
| SceneRegex.GroupCorrect | manim-mcp-server/src/manim_server.py:36 | Taking the longest word run as group 1 finds exactly the groups the pattern admits at that position. |
| SceneRegex.NameCorrect | manim-mcp-server/src/manim_server.py:36 | After `class`, the matcher's group agrees with `\s+(\w+)...`. |
| SceneRegex.MatchAtCorrect | manim-mcp-server/src/manim_server.py:36 | At every position, the matcher returns a name exactly when the whole pattern matches there with that name as group 1. |
| SceneRegex.MatchNameUnique | manim-mcp-server/src/manim_server.py:36-39 | At one position the pattern admits at most one group 1, so backtracking cannot produce a different class name. |
| SceneRegex.SearchFrom | manim-mcp-server/src/manim_server.py:36 | The search returns the first position at or after the start where the matcher succeeds, and no earlier position matches. |
| SceneRegex.SearchLeftmost | manim-mcp-server/src/manim_server.py:36-39 | `re.search` reports the leftmost match with its group 1, and reports none exactly when the pattern matches nowhere. |
| SceneRegex.SearchFindsFirst | manim-mcp-server/src/manim_server.py:36-39 | When the pattern matches at `i` and at no earlier position, the extracted name is that match's group 1. |
| SceneRegex.HeaderMatches | manim-mcp-server/src/manim_server.py:36 | `class N(B):` matches wherever it occurs when `N` is a word and `B` is an identifier ending in `Scene`, with `N` as group 1. |
| SceneRegex.MatchesAtExtends | manim-mcp-server/src/manim_server.py:36 | Text after a match does not undo it: the pattern ends at its colon. |
| SceneRegex.LeadingHeaderFound | manim-mcp-server/src/manim_server.py:36-39 | Code that starts with such a header, whatever follows, yields the header's class name. |
| SceneRegex.BrokenHeaderRejected | manim-mcp-server/src/manim_server.py:36 | A base-class part cut short by a character that is neither an identifier character, whitespace nor `)` does not match. Examples are the `.` of a dotted base or the `,` before a second base. |
| SceneRegex.ExtractedNameShape | manim-mcp-server/src/manim_server.py:36-39 | The extracted name comes from the leftmost match. It follows `class` and at least one whitespace character, and it is a non-empty run of word characters not followed by another. |
| RegexExamples.ExampleSceneSubclass | manim-mcp-server/src/manim_server.py:36-39 | `class CircleGrow(Scene):` followed by a body yields `CircleGrow`. |
| RegexExamples.ExampleMovingCameraScene | manim-mcp-server/src/manim_server.py:36-39 | `class Intro(MovingCameraScene):` yields `Intro`. |
| RegexExamples.ExampleNoWordBoundary | manim-mcp-server/src/manim_server.py:36-39 | `myclass Foo(Scene):` yields `Foo`: no word boundary is required before `class`. |
| RegexExamples.ExampleDottedBase | manim-mcp-server/src/manim_server.py:36-38 | `class A(manim.Scene):` yields no class. |
| RegexExamples.ExampleTwoBases | manim-mcp-server/src/manim_server.py:36-38 | `class A(Scene, X):` yields no class. |
| FileSystem.RemoveTree | manim-mcp-server/src/manim_server.py:26 | `rmtree` succeeds exactly on a non-root directory. Afterwards nothing at or below it exists, and every file and directory elsewhere is unchanged. |
| FileSystem.RemoveTreeValid | manim-mcp-server/src/manim_server.py:26 | Removing a tree leaves a well-formed tree. |
| FileSystem.MakeDirsSpec | manim-mcp-server/src/manim_server.py:27 | On a well-formed tree, `makedirs(..., exist_ok=True)` succeeds exactly when no prefix of the path is a regular file. It then adds the missing prefixes as directories, changes nothing else, and leaves a well-formed tree. |
| FileSystem.WriteFile | manim-mcp-server/src/manim_server.py:30-31 | Writing succeeds exactly when the parent is a directory, the path is not a directory, and no file lies on the way. Its effect is to set that one file's contents. |
| FileSystem.WriteFileValid | manim-mcp-server/src/manim_server.py:30-31 | Writing a file leaves a well-formed tree. |
| Server.ResetWorkspaceSpec | manim-mcp-server/src/manim_server.py:24-27 | The reset fails exactly when the workspace path runs into a regular file. Otherwise the workspace is an empty directory, the tree is well formed, files elsewhere and directories neither inside nor above the workspace are unchanged. The missing directories above the workspace are created. |
| Server.PrepareScriptSpec | manim-mcp-server/src/manim_server.py:23-31 | After reset and write, the workspace holds exactly `scene.py` with the code verbatim, whatever it held before. Files elsewhere and directories neither inside nor above the workspace are unchanged; missing parent directories of the workspace are created. The two steps fail only when the workspace path runs into a regular file. |
| Server.Execute | manim-mcp-server/src/manim_server.py:21-70 | The steps taken are a non-empty prefix of reset, write, extract, load, render, discover. A run that does not fail takes all of them. Loading happens only after a scene class was found. |
| Server.Launch | manim-mcp-server/src/manim_server.py:42-64 | Once a class name is found, load is always attempted, and the steps never go beyond the pipeline. |
| Server.Reply | manim-mcp-server/src/manim_server.py:38-70 | The reply starts with `Success:` exactly when the run did not fail, and with `Failed: ` exactly when it did. |
| Server.ExecuteManimCode | manim-mcp-server/src/manim_server.py:21-70 | Every reply starts with `Success:` or `Failed: `. The tool never lets an error through. |
| Server.ReplyTagged | manim-mcp-server/src/manim_server.py:21-70 | Each reply carries exactly one of the two tags, and the tag tells whether the run failed. |
| Server.NoSceneNoRender | manim-mcp-server/src/manim_server.py:36-38 | Without a match the reply is exactly `Failed: no Scene subclass found.` and no load or render step is taken. The workspace holds only `scene.py`. |
| Server.PrepareScriptOk | manim-mcp-server/src/manim_server.py:23-31 | On a well-formed tree whose workspace path does not run into a regular file, the reset and the write succeed. |
| Server.LoadFailureReported | manim-mcp-server/src/manim_server.py:42-44 | A load that raises gives `Failed: ` followed by its message, and nothing is rendered. |
| Server.MissingClassReported | manim-mcp-server/src/manim_server.py:45 | A module without the matched name fails with the `AttributeError` message, and nothing is rendered. |
| Server.RenderFailureReported | manim-mcp-server/src/manim_server.py:54-56 | A render that raises gives `Failed: ` followed by its message. |
| Server.ResetFailureReported | manim-mcp-server/src/manim_server.py:25-27 | A failed reset gives `Failed: ` followed by the operating system's message, after the reset step alone. |
| Server.FirstVideoFrom | manim-mcp-server/src/manim_server.py:59-64 | Gives the first index at or after the start that lists a `*.mp4` file below the workspace, and no earlier index lists one. |
| Server.DiscoveryFindsAnyVideo | manim-mcp-server/src/manim_server.py:59-66 | For a walk that lists the whole tree: no video is reported exactly when no file at any depth below the workspace is named `*.mp4`. |
| Server.DiscoveryTakesFirst | manim-mcp-server/src/manim_server.py:59-64 | The video reported is the first file in walk order whose name ends in `.mp4`. |
| Server.RenderedReply | manim-mcp-server/src/manim_server.py:54-66 | After a successful render the reply is `Success:` followed by the first video's path. If there is none, it is `Success:` followed by the workspace path and ` (no mp4 found)`. All six steps were taken. |
| Server.Cleanup | manim-mcp-server/src/manim_server.py:76-82 | A path that does not exist gives `Directory not found: <d>` and changes nothing. |
| Server.CleanupRemovesDirectory | manim-mcp-server/src/manim_server.py:76-79 | An existing directory is removed with everything below it. Nothing else changes, and the reply is `Cleanup successful for directory: <d>`. |
| Server.CleanupTwice | manim-mcp-server/src/manim_server.py:76-82 | Unless the first call failed, a second cleanup of the same path reports `Directory not found`. |
| Server.CleanupFailureReported | manim-mcp-server/src/manim_server.py:83-85 | A path that exists but cannot be removed gives `Failed to clean up directory: <d>. Error: <message>` and changes nothing. |
| Server.CleanupOfFile | manim-mcp-server/src/manim_server.py:76-85 | A regular file given as the directory fails with `Not a directory`. |
| EndToEnd.ClientAcceptsExactlySuccess | client/manim_mcp_client.py:102-107 | The client reports a saved animation exactly when the server's run did not fail. |
| EndToEnd.ArtifactIsVideo | manim-mcp-server/src/manim_server.py:59-64 | A reported video is a file below the workspace whose name ends in `.mp4`. |
| EndToEnd.ClientGetsVideoPath | client/manim_mcp_client.py:107 | The client receives a video's path exactly as the server wrote it. |
| EndToEnd.ClientTakesNoVideoNoteAsPath | client/manim_mcp_client.py:102-107 | When no video was found, the client takes the workspace path with ` (no mp4 found)` attached as the animation's path. |
| EndToEnd.FencedCodeReachesScript | client/manim_mcp_client.py:91-99 | A fenced program from the language model is written to `scene.py` without its fences. |

## Left out

- The language model call, its prompt and model name. The generated text is an arbitrary input string.
- The tool protocol: MCP session set-up, the stdio transport, `asyncio`, `AsyncExitStack` and `call_tool`. A reply is passed from server to client as a plain string.
- Executing the generated module, Manim's `tempconfig`, constructing the scene and `render()`. These run foreign code. They are oracle values: a load either defines a set of names or raises with a message, and a render either completes or raises. Each of them also gives the file system it leaves behind, whether it fails or not. This covers a compiled `__pycache__` entry, files the module writes, and partial movie files. That tree is not related to the one the step started from. Whether the configuration is restored afterwards is not claimed.
- Server.Launch: the trees that the load and render oracles leave behind are arbitrary values. Nothing ties them to the prepared tree, so no contract says that `scene.py` or anything outside the workspace survives loading or rendering.
- `os.walk`'s order. It is an oracle sequence. `Server.WalkOf` says it lists exactly the files below the workspace. The top-down grouping by directory is not modelled.
- `os.path.abspath(__file__)`: the server's directory is a parameter. Paths are sequences of components, so relative paths, `..` and symbolic links are not modelled. `cleanup_manim_temp_dir` takes such a path and echoes its `/`-joined text. The source echoes the caller's string as given.
- Operating-system errors are approximated. The messages follow CPython's `[Errno N] <text>: '<path>'` form with a path that contains no quote character. `rmtree` fails before removing anything, so partial removal and permission errors inside a tree are not modelled. Removing the root is reported as a permission error.
- Exceptions outside `Exception`, such as `SystemExit` raised by the generated code, escape the server's handler and are not modelled. Every oracle failure is an ordinary exception.
- Logging, `.env` loading and opening the video on Windows with `os.startfile`.
- `\w` and `str.lower()` are restricted to ASCII. Python also counts non-ASCII letters and digits as word characters and lower-cases non-ASCII letters. Whitespace for `\s` and `str.strip()` uses Python's complete list.
- Schema.ConvertTools: `types.FunctionDeclaration` and `Tool` are constructors from the language model's SDK. They convert the `parameters` mapping into the SDK's own schema type and may reject it. The model treats them as plain records that always accept. A tool's `description` may be `None` in the source; here it is always a string.
- FileSystem.WriteFile: `open(..., "w", encoding="utf-8").write(code)` raises `UnicodeEncodeError` when the code holds a lone surrogate. A Dafny `string` cannot hold one, so that failure is not modelled.
- JSON numbers are integers. Floating-point values are not modelled.
- `clean_schema` mutates its argument in place, so the caller's tool descriptor changes too. It is modelled as a pure function that returns the cleaned value.
- A mapping is an ordered member sequence. A Python `dict` has unique keys. On a sequence with repeated keys the model drops every `"title"` member and cleans every `"properties"` member.
- Prompt loop: `KeyboardInterrupt` and `EOFError` end the loop, and this is modelled as the end of the input lines. What each dispatched request produces is not modelled, because failures are reported and the loop goes on.

=== FILE: client.dfy ===
/**
 Normalising the code the language model returns before it is sent for
 execution: whitespace is stripped and one Markdown `python` code fence
 around the code is removed.
 */
module CodeFences {
  import opened Text

  /** The opening fence the client recognises: three backticks and `python`. */
  const PythonFence: string := "```python"
  /** The closing fence: three backticks. */
  const CloseFence: string := "```"

  /** Drops the opening `python` fence, if the text starts with it. */
  function DropOpener(t: string): (u: string)
    ensures StartsWith(t, PythonFence) ==> t == PythonFence + u
    ensures !StartsWith(t, PythonFence) ==> u == t
  {
    if StartsWith(t, PythonFence) then
      assert t == t[..|PythonFence|] + t[|PythonFence|..];
      t[|PythonFence|..]
    else t
  }

  /** Drops the closing fence, if the text ends with it. */
  function DropCloser(u: string): (code: string)
    ensures EndsWith(u, CloseFence) ==> u == code + CloseFence
    ensures !EndsWith(u, CloseFence) ==> code == u
  {
    if EndsWith(u, CloseFence) then
      assert u == u[..|u| - |CloseFence|] + u[|u| - |CloseFence|..];
      u[..|u| - |CloseFence|]
    else u
  }

  /** The code sent for execution, given the model's reply text: strip the
      whitespace, then drop a leading `PythonFence` (9 characters), then a
      trailing `CloseFence` (3 characters), each at most once. */
  function StripFences(text: string): string
  {
    DropCloser(DropOpener(Strip(text)))
  }

  /** The stripped reply is the returned code between the fences that were
      removed: the opening one exactly when the stripped text starts with it,
      the closing one exactly when what follows the opener ends with it. */
  lemma {:induction false} StripFencesSpec(text: string)
    ensures
      var t := Strip(text);
      var opener := if StartsWith(t, PythonFence) then PythonFence else "";
      var closer := if EndsWith(t[|opener|..], CloseFence) then CloseFence else "";
      t == opener + StripFences(text) + closer
  {
    var t := Strip(text);
    var u := DropOpener(t);
    assert t[|if StartsWith(t, PythonFence) then PythonFence else ""|..] == u;
  }

  /** Fencing a body and stripping the fences gives the body back verbatim,
      including a newline right after the opening fence. */
  lemma {:induction false} StripFencesRoundTrip(body: string)
    ensures StripFences(PythonFence + body + CloseFence) == body
  {
    var fenced := PythonFence + (body + CloseFence);
    assert PythonFence + body + CloseFence == fenced;
    assert Trimmed(fenced) by {
      assert fenced[0] == '`' && fenced[|fenced| - 1] == '`';
    }
    StripTrimmed(fenced);
    FencesOfFenced(body, fenced);
  }

  lemma {:induction false} FencesOfFenced(body: string, fenced: string)
    requires fenced == PythonFence + (body + CloseFence)
    ensures DropCloser(DropOpener(fenced)) == body
  {
    assert StartsWith(fenced, PythonFence) by {
      assert fenced[..|PythonFence|] == PythonFence;
    }
    var u := DropOpener(fenced);
    ConcatCancel(PythonFence, u, PythonFence, body + CloseFence);
    assert EndsWith(u, CloseFence) by {
      assert u[|u| - |CloseFence|..] == CloseFence;
    }
    var code := DropCloser(u);
    ConcatCancel(code, CloseFence, body, CloseFence);
  }

  /** Regrouping a four-part concatenation, kept apart so that the solver
      does not search for it inside a larger proof. */
  lemma {:induction false} Regroup(a: string, b: string, c: string, d: string)
    ensures a + (b + c) + d == a + b + c + d
  {
  }

  /** Text that does not start with the `python` fence keeps its start: the
      result is a prefix of the stripped text, so a bare three-backtick opener
      or a fence for another language is not removed. */
  lemma {:induction false} StripFencesKeepsOtherOpeners(text: string)
    requires !StartsWith(Strip(text), PythonFence)
    ensures
      var t := Strip(text);
      var code := StripFences(text);
      && |t| - |CloseFence| <= |code| <= |t|
      && code == t[..|code|]
  {
  }

  /** Text with neither fence comes back as its stripped form. */
  lemma {:induction false} StripFencesUnfenced(text: string)
    requires !StartsWith(Strip(text), PythonFence) && !EndsWith(Strip(text), CloseFence)
    ensures StripFences(text) == Strip(text)
  {
  }

  /** Stripping is done once: a body that itself starts with the `python`
      fence keeps that inner fence. */
  lemma {:induction false} StripFencesOnce(body: string)
    ensures StartsWith(StripFences(PythonFence + PythonFence + body + CloseFence), PythonFence)
  {
    var inner := PythonFence + body;
    StripFencesRoundTrip(inner);
    Regroup(PythonFence, PythonFence, body, CloseFence);
    assert inner[..|PythonFence|] == PythonFence;
  }
}

/**
 Reading the execution tool's reply on the client side: a reply tagged
 `Success:` yields the saved animation's path, anything else is a failure.
 */
module ToolReply {
  import opened Options
  import opened Text

  /** The tag that starts every successful reply. */
  const SuccessTag: string := "Success:"

  /** `sep` occurs in `s` at index `i`. */
  predicate OccursAt(s: string, sep: string, i: nat) {
    i + |sep| <= |s| && s[i..i + |sep|] == sep
  }

  /** `s.find(sep, from)`: the first index at or after `from` where `sep` occurs. */
  function FindFrom(s: string, sep: string, from: nat): (r: Option<nat>)
    requires from <= |s|
    ensures r.Some? ==> from <= r.value && OccursAt(s, sep, r.value)
    ensures forall i | from <= i && (r.None? || i < r.value) :: !OccursAt(s, sep, i)
    decreases |s| - from
  {
    if from + |sep| > |s| then None
    else if OccursAt(s, sep, from) then Some(from)
    else FindFrom(s, sep, from + 1)
  }

  /** `s.split(sep, 1)[-1]` for a non-empty `sep` (Python rejects an empty
      separator): the text after the first occurrence of `sep`, or all of `s`
      when `sep` does not occur. */
  function AfterFirst(s: string, sep: string): (r: string)
    requires |sep| > 0
  {
    match FindFrom(s, sep, 0)
    case Some(i) => s[i + |sep|..]
    case None => s
  }

  /** `AfterFirst` gives the text after the leftmost occurrence of `sep`, and
      all of `s` when `sep` occurs nowhere. */
  lemma {:induction false} AfterFirstSpec(s: string, sep: string)
    requires |sep| > 0
    ensures (forall i | 0 <= i <= |s| :: !OccursAt(s, sep, i)) ==> AfterFirst(s, sep) == s
    ensures (exists i | 0 <= i <= |s| :: OccursAt(s, sep, i)) ==>
      var r := AfterFirst(s, sep);
      var at := |s| - |r| - |sep|;
      && 0 <= at
      && OccursAt(s, sep, at)
      && r == s[at + |sep|..]
      && forall k | 0 <= k < at :: !OccursAt(s, sep, k)
  {
    match FindFrom(s, sep, 0)
    case Some(i) =>
      assert |s| - |AfterFirst(s, sep)| - |sep| == i;
    case None =>
  }

  /** The saved path the client reports, or `None` when it reports a failure. */
  function ParseReply(output: string): (path: Option<string>)
    ensures path.None? <==> !StartsWith(output, SuccessTag)
    ensures path.Some? ==> path.value == Strip(output[|SuccessTag|..])
  {
    if !StartsWith(output, SuccessTag) then None
    else
      assert FindFrom(output, SuccessTag, 0) == Some(0) by {
        assert OccursAt(output, SuccessTag, 0);
      }
      Some(Strip(AfterFirst(output, SuccessTag)))
  }

  /** A path without outer whitespace survives tagging and parsing. */
  lemma {:induction false} ParseReplyRoundTrip(p: string)
    requires Trimmed(p)
    ensures ParseReply(SuccessTag + p) == Some(p)
  {
    assert (SuccessTag + p)[..|SuccessTag|] == SuccessTag;
    assert (SuccessTag + p)[|SuccessTag|..] == p;
    StripTrimmed(p);
  }
}

/**
 The interactive prompt loop: each line typed is sorted into exit, ignore or
 an animation request.
 */
module Prompt {
  import opened Text

  /** What the loop does with one line typed at the prompt. */
  datatype Command = Exit | Ignore | Request(description: string)

  const ExitWords: set<string> := {"exit", "quit"}

  /** `prompt.lower() in {"exit", "quit"}`. */
  predicate IsExitWord(prompt: string) {
    Lower(prompt) in ExitWords
  }

  /** Sorts one input line: after stripping, `exit` or `quit` in any letter
      case ends the loop, an empty line is skipped, anything else is a
      description to animate. */
  function Classify(line: string): (c: Command)
    ensures c == Exit <==> IsExitWord(Strip(line))
    ensures c == Ignore <==> Strip(line) == []
    ensures c.Request? ==> c.description == Strip(line) && c.description != [] && Trimmed(c.description)
  {
    var prompt := Strip(line);
    if IsExitWord(prompt) then Exit
    else if prompt == [] then Ignore
    else Request(prompt)
  }

  /** A request's description, typed again, is the same request. */
  lemma {:induction false} ClassifyRequestStable(line: string)
    requires Classify(line).Request?
    ensures Classify(Classify(line).description) == Classify(line)
  {
    StripIdempotent(line);
  }

  /** The exit words are recognised in any letter case. */
  lemma {:induction false} ClassifyUpperExit()
    ensures Classify("EXIT") == Exit
  {
    assert Trimmed("EXIT");
    StripTrimmed("EXIT");
    assert Lower("EXIT") == "exit";
  }

  /** ... and with surrounding whitespace. */
  lemma {:induction false} ClassifyPaddedQuit()
    ensures Classify("  Quit\n") == Exit
  {
    PaddedQuitStripped();
    QuitLowered();
  }

  lemma {:induction false} PaddedQuitStripped()
    ensures Strip("  Quit\n") == "Quit"
  {
    var q := "  Quit\n";
    assert q[2..6] == "Quit" && q[..2] == "  " && q[6..] == "\n";
    PrintableNotSpace('Q');
    PrintableNotSpace('t');
    StripOfWitness(q, 2, 6);
    StripCharacterised(q, "Quit");
  }

  lemma {:induction false} QuitLowered()
    ensures Lower("Quit") == "quit"
  {
  }

  /** An exit word followed by more text is a description. */
  lemma {:induction false} ClassifyExitNowIsRequest()
    ensures Classify(" exit now ") == Request("exit now")
  {
    ExitNowStripped();
    assert |Lower("exit now")| == 8;
  }

  lemma {:induction false} ExitNowStripped()
    ensures Strip(" exit now ") == "exit now"
  {
    var e := " exit now ";
    assert e[1..9] == "exit now" && e[..1] == " " && e[9..] == " ";
    PrintableNotSpace('e');
    PrintableNotSpace('w');
    StripOfWitness(e, 1, 9);
    StripCharacterised(e, "exit now");
  }

  /** The descriptions the interactive loop dispatches, in order, for the
      lines read before the input ends; the loop stops at the first exit
      word. A failed request is reported and the loop goes on, so failures do
      not change which lines are dispatched. */
  function Session(lines: seq<string>): (dispatched: seq<string>)
    ensures |dispatched| <= |lines|
    ensures forall i | 0 <= i < |dispatched| :: Classify(dispatched[i]) == Request(dispatched[i])
  {
    if lines == [] then []
    else match Classify(lines[0])
      case Exit => []
      case Ignore => Session(lines[1..])
      case Request(d) =>
        ClassifyRequestStable(lines[0]);
        [d] + Session(lines[1..])
  }

  /** Nothing typed after an exit word is dispatched. */
  lemma {:induction false} SessionStopsAtExit(lines: seq<string>, more: seq<string>, i: nat)
    requires i < |lines| && Classify(lines[i]) == Exit
    ensures Session(lines + more) == Session(lines)
  {
    assert (lines + more)[0] == lines[0];
    if i == 0 {
      assert Session(lines) == [];
      assert Session(lines + more) == [];
    } else {
      assert (lines + more)[1..] == lines[1..] + more;
      SessionStopsAtExit(lines[1..], more, i - 1);
    }
  }

  /** Without an exit word every non-blank line is dispatched, in order. */
  lemma {:induction false} SessionDispatchesEveryRequest(lines: seq<string>)
    requires forall i | 0 <= i < |lines| :: Classify(lines[i]) != Exit
    ensures Session(lines) == RequestsOf(lines)
  {
    if lines != [] {
      SessionDispatchesEveryRequest(lines[1..]);
    }
  }

  /** The requests typed before the first exit word are all dispatched, in
      order, and nothing after it. */
  lemma {:induction false} SessionUpToExit(a: seq<string>, x: string, b: seq<string>)
    requires forall i | 0 <= i < |a| :: Classify(a[i]) != Exit
    requires Classify(x) == Exit
    ensures Session(a + [x] + b) == RequestsOf(a)
  {
    if a == [] {
      assert (a + [x] + b)[0] == x;
    } else {
      assert (a + [x] + b)[0] == a[0];
      assert (a + [x] + b)[1..] == a[1..] + [x] + b;
      SessionUpToExit(a[1..], x, b);
    }
  }

  /** The descriptions of the request lines, in order. */
  function RequestsOf(lines: seq<string>): seq<string>
  {
    if lines == [] then []
    else match Classify(lines[0])
      case Request(d) => [d] + RequestsOf(lines[1..])
      case _ => RequestsOf(lines[1..])
  }
}

=== FILE: endtoend.dfy ===
/**
 The client and the server together: what the client makes of every reply
 the execution tool can give, and what reaches the server's script file when
 the language model fences its code.
 */
module EndToEnd {
  import opened Options
  import opened Text
  import opened FileSystem
  import opened CodeFences
  import opened ToolReply
  import opened Server

  /** The client reports a saved animation exactly when the run did not fail. */
  lemma {:induction false} ClientAcceptsExactlySuccess(fs: Fs, base: Path, code: string, oracle: Oracle)
    ensures ParseReply(ExecuteManimCode(fs, base, code, oracle)).Some? <==>
      !Execute(fs, base, code, oracle).outcome.Failure?
  {
  }

  /** A reported video is a file below the workspace named `*.mp4`. */
  lemma {:induction false} ArtifactIsVideo(fs: Fs, base: Path, code: string, oracle: Oracle)
    requires Execute(fs, base, code, oracle).outcome.Artifact?
    ensures oracle.render.Rendered?
    ensures IsVideo(oracle.render.after, Workspace(base), Execute(fs, base, code, oracle).outcome.video)
  {
  }

  /** The client receives the video's path exactly as the server wrote it. */
  lemma {:induction false} ClientGetsVideoPath(fs: Fs, base: Path, code: string, oracle: Oracle)
    requires Execute(fs, base, code, oracle).outcome.Artifact?
    ensures ParseReply(ExecuteManimCode(fs, base, code, oracle)) ==
      Some(PathText(Execute(fs, base, code, oracle).outcome.video))
  {
    var p := Execute(fs, base, code, oracle).outcome.video;
    ArtifactIsVideo(fs, base, code, oracle);
    VideoReplyParsed(base, p);
  }

  lemma {:induction false} VideoReplyParsed(base: Path, p: Path)
    requires p != [] && EndsWith(p[|p| - 1], VideoSuffix)
    ensures ParseReply(Reply(base, Artifact(p))) == Some(PathText(p))
  {
    PathTextEnds(p);
    var t := PathText(p);
    var last := p[|p| - 1];
    assert t[|t| - 1] == last[|last| - 1];
    assert last[|last| - 1] == last[|last| - |VideoSuffix|..][3];
    PrintableNotSpace(t[0]);
    PrintableNotSpace(t[|t| - 1]);
    ParseReplyRoundTrip(t);
  }

  /** When no video was found, the client takes the whole remainder of the
      reply, note included, for the path of the animation. */
  lemma {:induction false} ClientTakesNoVideoNoteAsPath(fs: Fs, base: Path, code: string, oracle: Oracle)
    ensures Execute(fs, base, code, oracle).outcome == NoArtifact ==>
      ParseReply(ExecuteManimCode(fs, base, code, oracle)) ==
        Some(PathText(Workspace(base)) + " (no mp4 found)")
  {
    NoVideoReplyParsed(base);
  }

  lemma {:induction false} NoVideoReplyParsed(base: Path)
    ensures ParseReply(Reply(base, NoArtifact)) == Some(PathText(Workspace(base)) + " (no mp4 found)")
  {
    var w := PathText(Workspace(base));
    var note := " (no mp4 found)";
    var t := w + note;
    assert note[|note| - 1] == ')';
    assert t[|t| - 1] == note[|note| - 1];
    assert t[0] == w[0];
    PrintableNotSpace(t[0]);
    PrintableNotSpace(t[|t| - 1]);
    assert Trimmed(t);
    ParseReplyRoundTrip(t);
    assert Reply(base, NoArtifact) == SuccessTag + t;
  }

  /** A fenced program from the language model reaches the script file
      without its fences. */
  lemma {:induction false} FencedCodeReachesScript(fs: Fs, base: Path, body: string)
    requires Valid(fs) && !BlockedByFile(fs, Workspace(base))
    ensures
      var code := StripFences(PythonFence + body + CloseFence);
      && PrepareScript(fs, base, code).Ok?
      && PrepareScript(fs, base, code).value.files[ScriptPath(base)] == body
  {
    StripFencesRoundTrip(body);
    PrepareScriptSpec(fs, base, body);
  }
}

=== FILE: filesystem.dfy ===
/**
 The part of the operating system the server uses, as an abstract state: a
 tree of directories and regular files, and the operations `os.path.exists`,
 `shutil.rmtree`, `os.makedirs(..., exist_ok=True)` and writing a file with
 `open(path, "w")`. Each operation either returns the new state or fails
 with the `OSError` Python would raise.
 */
module FileSystem {
  import opened Options

  /** A path as its components below the root: `["srv", "media"]` is `/srv/media`. */
  type Path = seq<string>

  /** The contents of every regular file, and the set of directories. The
      root `[]` always exists and is listed in neither. */
  datatype Fs = Fs(files: map<Path, string>, dirs: set<Path>)

  /** The directory holding a non-root path. */
  function Parent(p: Path): Path
    requires p != []
  {
    p[..|p| - 1]
  }

  /** `p` is `d` itself or lies somewhere below it. */
  predicate Under(p: Path, d: Path) {
    |d| <= |p| && p[..|d|] == d
  }

  /** `p` lies strictly below `d`. */
  predicate Below(p: Path, d: Path) {
    Under(p, d) && p != d
  }

  predicate IsDir(fs: Fs, p: Path) {
    p == [] || p in fs.dirs
  }

  /** `os.path.exists`. */
  predicate Exists(fs: Fs, p: Path) {
    p == [] || p in fs.files || p in fs.dirs
  }

  /** A well-formed tree: no path is both a file and a directory, and every
      entry sits in a directory. */
  predicate Valid(fs: Fs) {
    && (forall p | p in fs.files :: p != [] && p !in fs.dirs && IsDir(fs, p[..|p| - 1]))
    && (forall p | p in fs.dirs :: p != [] && IsDir(fs, p[..|p| - 1]))
  }

  // ---------------------------------------------------------------------
  // Errors
  // ---------------------------------------------------------------------

  /** The `OSError` subclasses the operations raise, with the path they name. */
  datatype OsError =
    | NotADirectory(path: Path)
    | IsADirectory(path: Path)
    | FileNotFound(path: Path)
    | FileExists(path: Path)
    | PermissionDenied(path: Path)

  /** The absolute path as text: `/` followed by the components joined by `/`. */
  function PathText(p: Path): (t: string)
    ensures |t| > 0 && t[0] == '/'
  {
    if p == [] then "/" else Slashed(p)
  }

  /** Each component preceded by a `/`. */
  function Slashed(p: Path): (t: string)
    ensures p != [] ==> |t| > 0 && t[0] == '/'
  {
    if p == [] then "" else Slashed(p[..|p| - 1]) + "/" + p[|p| - 1]
  }

  /** The text of a non-root path ends with its last component. */
  lemma {:induction false} PathTextEnds(p: Path)
    requires p != []
    ensures |p[|p| - 1]| <= |PathText(p)|
    ensures PathText(p)[|PathText(p)| - |p[|p| - 1]|..] == p[|p| - 1]
  {
    var t := Slashed(p[..|p| - 1]) + "/";
    assert PathText(p) == t + p[|p| - 1];
    assert (t + p[|p| - 1])[|t|..] == p[|p| - 1];
  }

  /** `str(e)` for an `OSError` naming one path. */
  function ErrorText(e: OsError): string
  {
    var quoted := "'" + PathText(e.path) + "'";
    match e
    case NotADirectory(_) => "[Errno 20] Not a directory: " + quoted
    case IsADirectory(_) => "[Errno 21] Is a directory: " + quoted
    case FileNotFound(_) => "[Errno 2] No such file or directory: " + quoted
    case FileExists(_) => "[Errno 17] File exists: " + quoted
    case PermissionDenied(_) => "[Errno 13] Permission denied: " + quoted
  }

  // ---------------------------------------------------------------------
  // shutil.rmtree
  // ---------------------------------------------------------------------

  /** `shutil.rmtree(d)`: removes the directory `d` and everything below it.
      A file is refused, and so is a missing path and the root. */
  function RemoveTree(fs: Fs, d: Path): (r: Result<Fs, OsError>)
    ensures r.Ok? <==> d != [] && d in fs.dirs
    ensures r.Ok? ==> !Exists(r.value, d)
    ensures r.Ok? ==> forall p | !Under(p, d) ::
      && (p in r.value.files <==> p in fs.files)
      && (p in r.value.files ==> r.value.files[p] == fs.files[p])
      && (p in r.value.dirs <==> p in fs.dirs)
    ensures r.Ok? ==> forall p | Under(p, d) :: !Exists(r.value, p)
  {
    if d == [] then Err(PermissionDenied(d))
    else if d !in fs.dirs then
      if d in fs.files then Err(NotADirectory(d)) else Err(FileNotFound(d))
    else Ok(Fs(map p | p in fs.files && !Under(p, d) :: fs.files[p],
               set p | p in fs.dirs && !Under(p, d)))
  }

  /** `shutil.rmtree` keeps the tree well formed. */
  lemma {:induction false} RemoveTreeValid(fs: Fs, d: Path)
    requires Valid(fs) && RemoveTree(fs, d).Ok?
    ensures Valid(RemoveTree(fs, d).value)
  {
    var r := RemoveTree(fs, d).value;
    forall p | p in r.files || p in r.dirs
      ensures p != [] && IsDir(r, p[..|p| - 1])
    {
      var q := p[..|p| - 1];
      assert !Under(p, d);
      if |d| <= |q| {
        assert p[..|d|] == q[..|d|];
      }
    }
  }

  // ---------------------------------------------------------------------
  // os.makedirs(d, exist_ok=True)
  // ---------------------------------------------------------------------

  /** `os.mkdir(d)` with the `exist_ok` rule of `os.makedirs`: an existing
      directory is accepted, any other failure is raised. */
  function MakeDir(fs: Fs, d: Path): Result<Fs, OsError>
    requires d != []
  {
    if d in fs.dirs then Ok(fs)
    else if d in fs.files then Err(FileExists(d))
    else if Parent(d) in fs.files then Err(NotADirectory(d))
    else if !IsDir(fs, Parent(d)) then Err(FileNotFound(d))
    else Ok(Fs(fs.files, fs.dirs + {d}))
  }

  /** `os.makedirs(d, exist_ok=True)`: a missing parent is made first, then
      `d` itself. */
  function MakeDirs(fs: Fs, d: Path): Result<Fs, OsError>
    decreases |d|
  {
    if d == [] then Ok(fs)
    else
      var made := if Exists(fs, Parent(d)) then Ok(fs) else MakeDirs(fs, Parent(d));
      match made
      case Err(e) => Err(e)
      case Ok(fs1) => MakeDir(fs1, d)
  }

  /** The non-root prefixes of `d`: the directories `os.makedirs(d)` ensures. */
  function Ancestry(d: Path): (a: set<Path>)
    ensures forall k | 0 < k <= |d| :: d[..k] in a
    ensures forall x | x in a :: 0 < |x| <= |d| && x == d[..|x|]
    decreases |d|
  {
    if d == [] then {}
    else
      assert d[..|d|] == d;
      assert forall k | 0 < k < |d| :: d[..k] == Parent(d)[..k];
      Ancestry(Parent(d)) + {d}
  }

  /** Some non-root prefix of `d`, `d` included, is a regular file. */
  predicate BlockedByFile(fs: Fs, d: Path) {
    exists k | 0 < k <= |d| :: d[..k] in fs.files
  }

  /** In a well-formed tree every directory's ancestors are directories. */
  lemma {:induction false} AncestorsAreDirs(fs: Fs, d: Path)
    requires Valid(fs) && d in fs.dirs
    ensures forall k | 0 < k <= |d| :: d[..k] in fs.dirs
    decreases |d|
  {
    var q := d[..|d| - 1];
    assert d[..|d|] == d;
    if q != [] {
      AncestorsAreDirs(fs, q);
      forall k | 0 < k < |d| ensures d[..k] in fs.dirs {
        assert d[..k] == q[..k];
      }
    }
  }

  /** Below a path that does not exist nothing exists. */
  lemma {:induction false} MissingHasNoEntries(fs: Fs, d: Path, p: Path)
    requires Valid(fs) && !Exists(fs, d) && Under(p, d)
    ensures !Exists(fs, p)
    decreases |p| - |d|
  {
    if p != d {
      var q := p[..|p| - 1];
      assert q[..|d|] == d;
      MissingHasNoEntries(fs, d, q);
    }
  }

  /** `os.makedirs(d, exist_ok=True)` on a well-formed tree succeeds exactly
      when no prefix of `d` is a regular file, and then adds the missing
      prefixes as directories and changes nothing else. */
  lemma {:induction false} MakeDirsSpec(fs: Fs, d: Path)
    requires Valid(fs)
    ensures MakeDirs(fs, d).Ok? <==> !BlockedByFile(fs, d)
    ensures MakeDirs(fs, d).Ok? ==>
      && MakeDirs(fs, d).value == Fs(fs.files, fs.dirs + Ancestry(d))
      && Valid(MakeDirs(fs, d).value)
    decreases |d|
  {
    if d != [] {
      var q := Parent(d);
      if Exists(fs, q) {
        MakeDirParentExists(fs, d);
      } else {
        MakeDirsSpec(fs, q);
        MakeDirParentMissing(fs, d);
      }
    }
  }

  lemma {:induction false} MakeDirParentExists(fs: Fs, d: Path)
    requires Valid(fs) && d != [] && Exists(fs, Parent(d))
    ensures MakeDir(fs, d).Ok? <==> !BlockedByFile(fs, d)
    ensures MakeDir(fs, d).Ok? ==>
      && MakeDir(fs, d).value == Fs(fs.files, fs.dirs + Ancestry(d))
      && Valid(MakeDir(fs, d).value)
  {
    var q := Parent(d);
    assert d[..|d|] == d;
    if d in fs.dirs {
      AncestorsAreDirs(fs, d);
      assert fs.dirs + Ancestry(d) == fs.dirs;
    } else if d in fs.files {
      assert d[..|d|] in fs.files;
    } else if q in fs.files {
      assert d[..|d| - 1] in fs.files;
    } else {
      assert IsDir(fs, q);
      if q != [] {
        AncestorsAreDirs(fs, q);
      }
      assert Ancestry(q) <= fs.dirs;
      assert fs.dirs + Ancestry(d) == fs.dirs + {d};
    }
  }

  lemma {:induction false} MakeDirParentMissing(fs: Fs, d: Path)
    requires Valid(fs) && d != [] && !Exists(fs, Parent(d))
    requires MakeDirs(fs, Parent(d)).Ok? <==> !BlockedByFile(fs, Parent(d))
    requires MakeDirs(fs, Parent(d)).Ok? ==>
      && MakeDirs(fs, Parent(d)).value == Fs(fs.files, fs.dirs + Ancestry(Parent(d)))
      && Valid(MakeDirs(fs, Parent(d)).value)
    ensures MakeDirs(fs, d).Ok? <==> !BlockedByFile(fs, d)
    ensures MakeDirs(fs, d).Ok? ==>
      && MakeDirs(fs, d).value == Fs(fs.files, fs.dirs + Ancestry(d))
      && Valid(MakeDirs(fs, d).value)
  {
    var q := Parent(d);
    MissingBlocked(fs, d);
    if !BlockedByFile(fs, d) {
      var fs1 := MakeDirs(fs, q).value;
      assert d !in fs1.dirs;
      AddDirValid(fs1, d);
    }
  }

  /** Below a missing parent, `d` is blocked by a file exactly when its parent is. */
  lemma {:induction false} MissingBlocked(fs: Fs, d: Path)
    requires Valid(fs) && d != [] && !Exists(fs, Parent(d))
    ensures !Exists(fs, d)
    ensures BlockedByFile(fs, d) <==> BlockedByFile(fs, Parent(d))
  {
    assert d[..|d|] == d;
    MissingHasNoEntries(fs, Parent(d), d);
    if BlockedByFile(fs, d) {
      var k :| 0 < k <= |d| && d[..k] in fs.files;
      PrefixBlocks(fs, Parent(d), d, k);
    }
    if BlockedByFile(fs, Parent(d)) {
      var k :| 0 < k <= |Parent(d)| && Parent(d)[..k] in fs.files;
      PrefixBlocks(fs, d, Parent(d), k);
    }
  }

  lemma {:induction false} PrefixBlocks(fs: Fs, p: Path, q: Path, k: nat)
    requires 0 < k <= |p| && k <= |q| && p[..k] == q[..k] && q[..k] in fs.files
    ensures BlockedByFile(fs, p)
  {
  }

  /** Adding a directory inside an existing one keeps the tree well formed. */
  lemma {:induction false} AddDirValid(fs: Fs, d: Path)
    requires Valid(fs) && d != [] && IsDir(fs, Parent(d)) && d !in fs.files
    ensures Valid(Fs(fs.files, fs.dirs + {d}))
  {
  }

  // ---------------------------------------------------------------------
  // open(p, "w").write(content)
  // ---------------------------------------------------------------------

  /** Some proper non-root prefix of `p` is a regular file. */
  predicate ThroughFile(fs: Fs, p: Path) {
    exists k | 0 < k < |p| :: p[..k] in fs.files
  }

  /** Creating or truncating the file `p` and writing `content` to it. The
      path is resolved first, so a file on the way or a missing parent is
      reported before `p` being a directory. */
  function WriteFile(fs: Fs, p: Path, content: string): (r: Result<Fs, OsError>)
    ensures r.Ok? ==> r.value.files == fs.files[p := content] && r.value.dirs == fs.dirs
    ensures r.Ok? <==> p != [] && IsDir(fs, Parent(p)) && p !in fs.dirs && !ThroughFile(fs, p)
  {
    if p == [] then Err(IsADirectory(p))
    else if ThroughFile(fs, p) then Err(NotADirectory(p))
    else if !IsDir(fs, Parent(p)) then Err(FileNotFound(p))
    else if p in fs.dirs then Err(IsADirectory(p))
    else Ok(Fs(fs.files[p := content], fs.dirs))
  }

  /** Writing a file keeps the tree well formed. */
  lemma {:induction false} WriteFileValid(fs: Fs, p: Path, content: string)
    requires Valid(fs) && WriteFile(fs, p, content).Ok?
    ensures Valid(WriteFile(fs, p, content).value)
  {
  }
}

=== FILE: options.dfy ===
/** Small failure-carrying datatypes shared by the client and the server model. */
module Options {

  /** An optional value: Python's `None` or a present value. */
  datatype Option<+T> = None | Some(value: T)

  /** The value of a computation that either succeeds or raises an error `E`. */
  datatype Result<+T, +E> = Ok(value: T) | Err(error: E)
}

=== FILE: regex_examples.dfy ===
/**
 Worked instances of the entry-point pattern on class headers the language
 model may produce.
 */
module RegexExamples {
  import opened Options
  import opened Text
  import opened SceneRegex

  /** A direct `Scene` subclass is found and its name extracted; the class
      body after the header plays no part. */
  lemma {:induction false} ExampleSceneSubclass()
    ensures SceneClassName("class CircleGrow(Scene):\n    pass") == Some("CircleGrow")
  {
    CircleGrowText();
    SceneBase();
    assert IsWord("CircleGrow");
    LeadingHeaderFound("CircleGrow", "Scene", "\n    pass");
  }

  lemma {:induction false} CircleGrowText()
    ensures "class CircleGrow(Scene):\n    pass" == Header("CircleGrow", "Scene") + "\n    pass"
  {
  }

  lemma {:induction false} SceneBase()
    ensures IsIdentifier("Scene") && EndsWith("Scene", SceneWord)
  {
  }

  /** Any base identifier ending in `Scene` is accepted. */
  lemma {:induction false} ExampleMovingCameraScene()
    ensures SceneClassName("class Intro(MovingCameraScene):") == Some("Intro")
  {
    MovingCameraText();
    MovingCameraBase();
    assert IsWord("Intro");
    LeadingHeaderFound("Intro", "MovingCameraScene", "");
  }

  lemma {:induction false} MovingCameraText()
    ensures "class Intro(MovingCameraScene):" == Header("Intro", "MovingCameraScene") + ""
  {
  }

  lemma {:induction false} MovingCameraBase()
    ensures IsIdentifier("MovingCameraScene") && EndsWith("MovingCameraScene", SceneWord)
  {
    var base := "MovingCameraScene";
    assert base[|base| - |SceneWord|..] == SceneWord;
  }

  /** There is no word boundary before `class`: a longer word ending in
      `class` also starts a match. */
  lemma {:induction false} ExampleNoWordBoundary()
    ensures SceneClassName("myclass Foo(Scene):") == Some("Foo")
  {
    var s := "myclass Foo(Scene):";
    assert s == "my" + Header("Foo", "Scene");
    assert IsWord("Foo") && IsIdentifier("Scene") && EndsWith("Scene", SceneWord);
    HeaderMatches("my", "Foo", "Scene");
    NoClassBeforeTwo();
    SearchFindsFirst(s, 2, "Foo");
  }

  lemma {:induction false} NoClassBeforeTwo()
    ensures forall j: nat | j < 2 :: MatchAt("myclass Foo(Scene):", j).None?
  {
    NoClassAt("myclass Foo(Scene):", 0, 0);
    NoClassAt("myclass Foo(Scene):", 1, 0);
  }

  /** A text differing from `class` in its `m`-th character at `j` has no
      match there. */
  lemma {:induction false} NoClassAt(s: string, j: nat, m: nat)
    requires m < |ClassWord| && j + m < |s| && s[j + m] != ClassWord[m]
    ensures MatchAt(s, j).None?
  {
    if j + |ClassWord| <= |s| {
      assert s[j + m] == s[j..j + |ClassWord|][m];
    }
  }

  /** A dotted base class name is not matched. */
  lemma {:induction false} ExampleDottedBase()
    ensures SceneClassName("class A(manim.Scene):") == None
  {
    var s := "class A(manim.Scene):";
    assert s == [] + BrokenHeader("A", "manim", '.', "Scene):");
    assert IsWord("A") && IsIdentifier("manim");
    BrokenHeaderRejected([], "A", "manim", '.', "Scene):");
    forall j: nat | 0 < j
      ensures MatchAt(s, j).None?
    {
      DottedRest(j);
    }
  }

  lemma {:induction false} DottedRest(j: nat)
    requires 0 < j
    ensures MatchAt("class A(manim.Scene):", j).None?
  {
    var s := "class A(manim.Scene):";
    if j == 15 {
      NoClassAt(s, j, 1);
    } else if j + |ClassWord| <= |s| {
      NoClassAt(s, j, 0);
    }
  }

  /** A class with more than one base is not matched. */
  lemma {:induction false} ExampleTwoBases()
    ensures SceneClassName("class A(Scene, X):") == None
  {
    var s := "class A(Scene, X):";
    assert s == [] + BrokenHeader("A", "Scene", ',', " X):");
    assert IsWord("A") && IsIdentifier("Scene");
    BrokenHeaderRejected([], "A", "Scene", ',', " X):");
    forall j: nat | 0 < j
      ensures MatchAt(s, j).None?
    {
      TwoBasesRest(j);
    }
  }

  lemma {:induction false} TwoBasesRest(j: nat)
    requires 0 < j
    ensures MatchAt("class A(Scene, X):", j).None?
  {
    var s := "class A(Scene, X):";
    if j == 9 {
      NoClassAt(s, j, 1);
    } else if j + |ClassWord| <= |s| {
      NoClassAt(s, j, 0);
    }
  }
}

=== FILE: scene_regex.dfy ===
/**
 Locating the animation's entry point in the generated code: the server
 searches the code for

     class\s+(\w+)\s*\(\s*[A-Za-z0-9_]*Scene\s*\)\s*:

 with Python's `re.search` and takes group 1 as the class to render.

 The pattern's meaning is written piece by piece, right to left, as
 recursive predicates that follow the backtracking semantics of the `re`
 module: at every repetition the match may stop or take one more character
 of the class. `MatchAt` is a hand-written matcher that instead takes the
 longest run at every repetition, and `MatchAtCorrect` proves the two
 agree. No backtracking is ever needed: each repetition is followed by a
 character its class does not contain, except `[A-Za-z0-9_]*` before
 `Scene`, which the matcher handles by checking that the longest identifier
 run ends in `Scene`.
 */
module SceneRegex {
  import opened Options
  import opened Text

  const ClassWord: string := "class"
  const SceneWord: string := "Scene"

  /** The character classes the pattern uses: `\s`, `\w` and `[A-Za-z0-9_]`. */
  datatype CharClass = Space | Word | Ident

  predicate In(c: char, p: CharClass) {
    match p
    case Space => IsSpace(c)
    case Word => IsWordChar(c)
    case Ident => IsIdentChar(c)
  }

  /** The literal `w` occurs in `s` at position `k`. */
  predicate LiteralAt(s: string, k: nat, w: string) {
    k + |w| <= |s| && s[k..k + |w|] == w
  }

  /** A whitespace character is neither a word nor an identifier character. */
  lemma {:induction false} SpaceIsNotWord(c: char)
    ensures IsSpace(c) ==> !IsWordChar(c) && !IsIdentChar(c)
  {
  }

  // ---------------------------------------------------------------------
  // What the pattern means
  // ---------------------------------------------------------------------

  /** `\s*:` matches from `k`. */
  ghost predicate TailColon(s: string, k: nat)
    decreases |s| - k
  {
    k < |s| && (s[k] == ':' || (IsSpace(s[k]) && TailColon(s, k + 1)))
  }

  /** `\s*\)\s*:` matches from `k`. */
  ghost predicate TailClose(s: string, k: nat)
    decreases |s| - k
  {
    k < |s| && ((s[k] == ')' && TailColon(s, k + 1)) || (IsSpace(s[k]) && TailClose(s, k + 1)))
  }

  /** `[A-Za-z0-9_]*Scene\s*\)\s*:` matches from `k`. */
  ghost predicate TailBase(s: string, k: nat)
    decreases |s| - k
  {
    || (LiteralAt(s, k, SceneWord) && TailClose(s, k + |SceneWord|))
    || (k < |s| && IsIdentChar(s[k]) && TailBase(s, k + 1))
  }

  /** `\s*[A-Za-z0-9_]*Scene\s*\)\s*:` matches from `k`. */
  ghost predicate TailParen(s: string, k: nat)
    decreases |s| - k
  {
    TailBase(s, k) || (k < |s| && IsSpace(s[k]) && TailParen(s, k + 1))
  }

  /** `\s*\(\s*[A-Za-z0-9_]*Scene\s*\)\s*:` matches from `k`. */
  ghost predicate TailOpen(s: string, k: nat)
    decreases |s| - k
  {
    k < |s| && ((s[k] == '(' && TailParen(s, k + 1)) || (IsSpace(s[k]) && TailOpen(s, k + 1)))
  }

  /** `name` is a non-empty run of word characters. */
  predicate IsWord(name: string) {
    0 < |name| && forall j | 0 <= j < |name| :: IsWordChar(name[j])
  }

  /** `(\w+)\s*\(...` matches from `a`, with group 1 equal to `name`. */
  ghost predicate GroupAt(s: string, a: nat, name: string) {
    IsWord(name) && LiteralAt(s, a, name) && TailOpen(s, a + |name|)
  }

  /** `\s*(\w+)...` matches from `k`, with group 1 equal to `name`. */
  ghost predicate SpacesGroup(s: string, k: nat, name: string)
    decreases |s| - k
  {
    GroupAt(s, k, name) || (k < |s| && IsSpace(s[k]) && SpacesGroup(s, k + 1, name))
  }

  /** `\s+(\w+)...` matches from `k`, with group 1 equal to `name`. */
  ghost predicate NameFrom(s: string, k: nat, name: string) {
    k < |s| && IsSpace(s[k]) && SpacesGroup(s, k + 1, name)
  }

  /** The whole pattern matches at `i` with group 1 equal to `name`. */
  ghost predicate MatchesAt(s: string, i: nat, name: string) {
    LiteralAt(s, i, ClassWord) && NameFrom(s, i + |ClassWord|, name)
  }

  // ---------------------------------------------------------------------
  // The matcher
  // ---------------------------------------------------------------------

  /** Every character of `s[a..b]` is in the class `p`. */
  ghost predicate AllIn(s: string, a: nat, b: nat, p: CharClass) {
    a <= b <= |s| && forall j | a <= j < b :: In(s[j], p)
  }

  /** The end of the longest run of characters of class `p` starting at `k`. */
  function RunEnd(s: string, k: nat, p: CharClass): (e: nat)
    requires k <= |s|
    ensures k <= e <= |s|
    decreases |s| - k
  {
    if k < |s| && In(s[k], p) then RunEnd(s, k + 1, p) else k
  }

  /** Every character of the run is in `p`, and the run stops at the end of
      the text or at a character outside `p`. */
  lemma {:induction false} RunEndSpec(s: string, k: nat, p: CharClass)
    requires k <= |s|
    ensures AllIn(s, k, RunEnd(s, k, p), p)
    ensures RunEnd(s, k, p) == |s| || !In(s[RunEnd(s, k, p)], p)
    decreases |s| - k
  {
    if k < |s| && In(s[k], p) {
      RunEndSpec(s, k + 1, p);
    }
  }

  /** A run of class `p` that is followed by a character outside `p` is the
      longest one. */
  lemma {:induction false} RunEndUnique(s: string, k: nat, p: CharClass, e: nat)
    requires AllIn(s, k, e, p) && (e == |s| || !In(s[e], p))
    ensures RunEnd(s, k, p) == e
    decreases e - k
  {
    if k < e {
      RunEndUnique(s, k + 1, p, e);
    }
  }

  predicate ColonAhead(s: string, k: nat)
    requires k <= |s|
  {
    var e := RunEnd(s, k, Space);
    e < |s| && s[e] == ':'
  }

  predicate CloseAhead(s: string, k: nat)
    requires k <= |s|
  {
    var e := RunEnd(s, k, Space);
    e < |s| && s[e] == ')' && ColonAhead(s, e + 1)
  }

  /** The longest identifier run ends in `Scene` and the rest follows. */
  predicate BaseAhead(s: string, k: nat)
    requires k <= |s|
  {
    var e := RunEnd(s, k, Ident);
    k + |SceneWord| <= e && s[e - |SceneWord|..e] == SceneWord && CloseAhead(s, e)
  }

  predicate ParenAhead(s: string, k: nat)
    requires k <= |s|
  {
    BaseAhead(s, RunEnd(s, k, Space))
  }

  predicate OpenAhead(s: string, k: nat)
    requires k <= |s|
  {
    var a := RunEnd(s, k, Space);
    a < |s| && s[a] == '(' && ParenAhead(s, a + 1)
  }

  /** Group 1 when the group starts at `a`: the longest word run there. */
  function GroupOp(s: string, a: nat): Option<string>
    requires a <= |s|
  {
    var b := RunEnd(s, a, Word);
    if a < b && OpenAhead(s, b) then Some(s[a..b]) else None
  }

  /** Group 1 after `class`: at least one whitespace character, then the group. */
  function NameOp(s: string, k: nat): Option<string>
    requires k <= |s|
  {
    var a := RunEnd(s, k, Space);
    if k < a then GroupOp(s, a) else None
  }

  /** The match at position `i`, if any, as its group 1. */
  function MatchAt(s: string, i: nat): Option<string>
  {
    if LiteralAt(s, i, ClassWord) then NameOp(s, i + |ClassWord|) else None
  }

  // ---------------------------------------------------------------------
  // The matcher agrees with the pattern
  // ---------------------------------------------------------------------

  lemma {:induction false} ColonCorrect(s: string, k: nat)
    requires k <= |s|
    ensures ColonAhead(s, k) <==> TailColon(s, k)
    decreases |s| - k
  {
    if k < |s| && IsSpace(s[k]) {
      ColonCorrect(s, k + 1);
    }
  }

  lemma {:induction false} CloseCorrect(s: string, k: nat)
    requires k <= |s|
    ensures CloseAhead(s, k) <==> TailClose(s, k)
    decreases |s| - k
  {
    if k < |s| && IsSpace(s[k]) {
      CloseCorrect(s, k + 1);
    } else if k < |s| {
      ColonCorrect(s, k + 1);
    }
  }

  /** What follows the base class name starts with whitespace or `)`. */
  lemma {:induction false} TailCloseStart(s: string, k: nat)
    ensures TailClose(s, k) ==> k < |s| && !IsIdentChar(s[k])
  {
    if k < |s| {
      SpaceIsNotWord(s[k]);
    }
  }

  /** The base class name starts with an identifier character. */
  lemma {:induction false} TailBaseStart(s: string, k: nat)
    ensures TailBase(s, k) ==> k < |s| && IsIdentChar(s[k])
  {
    if LiteralAt(s, k, SceneWord) {
      assert s[k] == SceneWord[0];
    }
  }

  /** `Scene` consists of identifier characters. */
  lemma {:induction false} SceneIsIdent(s: string, k: nat)
    requires LiteralAt(s, k, SceneWord)
    ensures AllIn(s, k, k + |SceneWord|, Ident)
  {
    forall j | k <= j < k + |SceneWord|
      ensures In(s[j], Ident)
    {
      assert s[j] == SceneWord[j - k];
    }
  }

  lemma {:induction false} BaseCorrect(s: string, k: nat)
    requires k <= |s|
    ensures BaseAhead(s, k) <==> TailBase(s, k)
    decreases |s| - k
  {
    var e := RunEnd(s, k, Ident);
    if k < |s| && IsIdentChar(s[k]) {
      BaseCorrect(s, k + 1);
      if LiteralAt(s, k, SceneWord) {
        TailCloseStart(s, k + |SceneWord|);
        CloseCorrect(s, k + |SceneWord|);
        if TailClose(s, k + |SceneWord|) {
          SceneIsIdent(s, k);
          RunEndUnique(s, k, Ident, k + |SceneWord|);
        }
      }
      if e == k + |SceneWord| {
        CloseCorrect(s, e);
      }
    } else {
      TailBaseStart(s, k);
    }
  }

  lemma {:induction false} ParenCorrect(s: string, k: nat)
    requires k <= |s|
    ensures ParenAhead(s, k) <==> TailParen(s, k)
    decreases |s| - k
  {
    if k < |s| && IsSpace(s[k]) {
      ParenCorrect(s, k + 1);
      TailBaseStart(s, k);
      SpaceIsNotWord(s[k]);
    } else {
      BaseCorrect(s, k);
    }
  }

  lemma {:induction false} OpenCorrect(s: string, k: nat)
    requires k <= |s|
    ensures OpenAhead(s, k) <==> TailOpen(s, k)
    decreases |s| - k, 1
  {
    if k < |s| && IsSpace(s[k]) {
      OpenSkip(s, k);
    } else {
      OpenStop(s, k);
    }
  }

  /** A leading whitespace character is skipped by both sides. */
  lemma {:induction false} OpenSkip(s: string, k: nat)
    requires k < |s| && IsSpace(s[k])
    ensures OpenAhead(s, k) <==> TailOpen(s, k)
    decreases |s| - k, 0
  {
    assert RunEnd(s, k, Space) == RunEnd(s, k + 1, Space);
    OpenCorrect(s, k + 1);
  }

  /** At a non-space both sides need `(` here. */
  lemma {:induction false} OpenStop(s: string, k: nat)
    requires k <= |s| && !(k < |s| && IsSpace(s[k]))
    ensures OpenAhead(s, k) <==> TailOpen(s, k)
  {
    if k < |s| {
      OpenAtNonSpace(s, k);
    } else {
      assert RunEnd(s, k, Space) == k;
    }
  }

  lemma {:induction false} OpenAtNonSpace(s: string, k: nat)
    requires k < |s| && !IsSpace(s[k])
    ensures OpenAhead(s, k) <==> TailOpen(s, k)
  {
    assert !In(s[k], Space);
    assert RunEnd(s, k, Space) == k;
    assert OpenAhead(s, k) == (s[k] == '(' && ParenAhead(s, k + 1));
    assert TailOpen(s, k) == (s[k] == '(' && TailParen(s, k + 1));
    ParenCorrect(s, k + 1);
  }

  /** What follows the class name starts with whitespace or `(`. */
  lemma {:induction false} TailOpenStart(s: string, k: nat)
    ensures TailOpen(s, k) ==> k < |s| && !IsWordChar(s[k])
  {
    if k < |s| {
      SpaceIsNotWord(s[k]);
    }
  }

  /** The group, when it starts at `a`, is the longest word run there. */
  lemma {:induction false} GroupCorrect(s: string, a: nat, name: string)
    requires a <= |s|
    ensures GroupOp(s, a) == Some(name) <==> GroupAt(s, a, name)
  {
    if GroupOp(s, a) == Some(name) {
      GroupSound(s, a, name);
    }
    if GroupAt(s, a, name) {
      GroupComplete(s, a, name);
    }
  }

  lemma {:induction false} GroupSound(s: string, a: nat, name: string)
    requires a <= |s| && GroupOp(s, a) == Some(name)
    ensures GroupAt(s, a, name)
  {
    var b := RunEnd(s, a, Word);
    RunEndSpec(s, a, Word);
    OpenCorrect(s, b);
    forall j | 0 <= j < |name|
      ensures IsWordChar(name[j])
    {
      assert name[j] == s[a + j];
    }
  }

  lemma {:induction false} GroupComplete(s: string, a: nat, name: string)
    requires a <= |s| && GroupAt(s, a, name)
    ensures GroupOp(s, a) == Some(name)
  {
    var c := a + |name|;
    TailOpenStart(s, c);
    forall j | a <= j < c
      ensures In(s[j], Word)
    {
      assert s[j] == name[j - a];
    }
    RunEndUnique(s, a, Word, c);
    OpenCorrect(s, c);
  }

  /** The group starts with a word character. */
  lemma {:induction false} GroupAtStart(s: string, a: nat, name: string)
    ensures GroupAt(s, a, name) ==> a < |s| && IsWordChar(s[a])
  {
    if GroupAt(s, a, name) {
      assert s[a] == name[0];
    }
  }

  lemma {:induction false} SpacesGroupCorrect(s: string, k: nat, name: string)
    requires k <= |s|
    ensures GroupOp(s, RunEnd(s, k, Space)) == Some(name) <==> SpacesGroup(s, k, name)
    decreases |s| - k
  {
    if k < |s| && IsSpace(s[k]) {
      SpacesGroupCorrect(s, k + 1, name);
      GroupAtStart(s, k, name);
      SpaceIsNotWord(s[k]);
    } else {
      GroupCorrect(s, k, name);
    }
  }

  /** After `class`, the matcher's group is exactly the one the pattern admits. */
  lemma {:induction false} NameCorrect(s: string, k: nat, name: string)
    requires k <= |s|
    ensures NameOp(s, k) == Some(name) <==> NameFrom(s, k, name)
  {
    if k < |s| && IsSpace(s[k]) {
      SpacesGroupCorrect(s, k + 1, name);
    }
  }

  /** The matcher finds exactly the matches the pattern admits, with the
      same group 1. */
  lemma {:induction false} MatchAtCorrect(s: string, i: nat, name: string)
    ensures MatchAt(s, i) == Some(name) <==> MatchesAt(s, i, name)
  {
    if LiteralAt(s, i, ClassWord) {
      NameCorrect(s, i + |ClassWord|, name);
    }
  }

  /** At any one position the pattern admits at most one group 1, so
      backtracking cannot yield a different class name. */
  lemma {:induction false} MatchNameUnique(s: string, i: nat, n1: string, n2: string)
    requires MatchesAt(s, i, n1) && MatchesAt(s, i, n2)
    ensures n1 == n2
  {
    MatchAtCorrect(s, i, n1);
    MatchAtCorrect(s, i, n2);
  }

  // ---------------------------------------------------------------------
  // re.search: the leftmost match
  // ---------------------------------------------------------------------

  datatype Match = Match(start: nat, name: string)

  /** The first match at or after position `i`. */
  function SearchFrom(s: string, i: nat): (r: Option<Match>)
    requires i <= |s|
    ensures r.Some? ==> i <= r.value.start < |s| && MatchAt(s, r.value.start) == Some(r.value.name)
    ensures forall j | i <= j && (r.None? || j < r.value.start) :: MatchAt(s, j).None?
    decreases |s| - i
  {
    if i == |s| then None
    else match MatchAt(s, i)
      case Some(n) => Some(Match(i, n))
      case None => SearchFrom(s, i + 1)
  }

  /** `re.search(pattern, code)`. */
  function Search(s: string): Option<Match>
  {
    SearchFrom(s, 0)
  }

  /** `m.group(1)` of the search, or `None` when nothing matched. */
  function SceneClassName(code: string): Option<string>
  {
    match Search(code)
    case Some(m) => Some(m.name)
    case None => None
  }

  /** The search reports the leftmost match and its group, and reports none
      exactly when the pattern matches nowhere. */
  lemma {:induction false} SearchLeftmost(s: string)
    ensures Search(s).Some? ==>
      && MatchesAt(s, Search(s).value.start, Search(s).value.name)
      && forall j: nat, n: string | j < Search(s).value.start :: !MatchesAt(s, j, n)
    ensures Search(s).None? <==> forall j: nat, n: string :: !MatchesAt(s, j, n)
  {
    var r := Search(s);
    forall j: nat, n: string | r.None? || j < r.value.start
      ensures !MatchesAt(s, j, n)
    {
      MatchAtCorrect(s, j, n);
    }
    if r.Some? {
      MatchAtCorrect(s, r.value.start, r.value.name);
    }
  }

  /** A match at `i` with no match before it is the one reported. */
  lemma {:induction false} SearchFindsFirst(s: string, i: nat, name: string)
    requires MatchesAt(s, i, name)
    requires forall j: nat | j < i :: MatchAt(s, j).None?
    ensures Search(s) == Some(Match(i, name))
    ensures SceneClassName(s) == Some(name)
  {
    MatchAtCorrect(s, i, name);
  }

  /** `class <name>(<base>):`, a class header with one base and no spaces. */
  function Header(name: string, base: string): string
  {
    ClassWord + " " + name + "(" + base + "):"
  }

  /** Every character of `w` is an identifier character. */
  predicate IsIdentifier(w: string) {
    forall j | 0 <= j < |w| :: IsIdentChar(w[j])
  }

  /** An identifier run in front of a base-class match is absorbed by
      `[A-Za-z0-9_]*`. */
  lemma {:induction false} TailBaseBack(s: string, k: nat, e: nat)
    requires AllIn(s, k, e, Ident) && TailBase(s, e)
    ensures TailBase(s, k)
    decreases e - k
  {
    if k < e {
      TailBaseBack(s, k + 1, e);
    }
  }

  /** Every header naming a word-character class and an identifier base that
      ends in `Scene` matches, wherever it occurs, with the class as group 1. */
  lemma {:induction false} HeaderMatches(pre: string, name: string, base: string)
    requires IsWord(name) && IsIdentifier(base) && EndsWith(base, SceneWord)
    ensures MatchesAt(pre + Header(name, base), |pre|, name)
  {
    var s := pre + Header(name, base);
    var p := |pre|;
    var g := p + |ClassWord| + 1;
    var b := g + |name| + 1;
    HeaderLayout(pre, name, base);
    BaseMatches(s, b, base);
    assert TailOpen(s, b - 1);
    assert GroupAt(s, g, name);
    assert SpacesGroup(s, g, name);
  }

  // ---------------------------------------------------------------------
  // A match does not depend on the text after it
  // ---------------------------------------------------------------------

  lemma {:induction false} LiteralAtExtends(s: string, t: string, k: nat, w: string)
    requires LiteralAt(s, k, w)
    ensures LiteralAt(s + t, k, w)
  {
    assert (s + t)[k..k + |w|] == s[k..k + |w|];
  }

  lemma {:induction false} TailColonExtends(s: string, t: string, k: nat)
    requires TailColon(s, k)
    ensures TailColon(s + t, k)
    decreases |s| - k
  {
    if s[k] != ':' {
      TailColonExtends(s, t, k + 1);
    }
  }

  lemma {:induction false} TailCloseExtends(s: string, t: string, k: nat)
    requires TailClose(s, k)
    ensures TailClose(s + t, k)
    decreases |s| - k
  {
    if s[k] == ')' && TailColon(s, k + 1) {
      TailColonExtends(s, t, k + 1);
    } else {
      TailCloseExtends(s, t, k + 1);
    }
  }

  lemma {:induction false} TailBaseExtends(s: string, t: string, k: nat)
    requires TailBase(s, k)
    ensures TailBase(s + t, k)
    decreases |s| - k
  {
    if LiteralAt(s, k, SceneWord) && TailClose(s, k + |SceneWord|) {
      LiteralAtExtends(s, t, k, SceneWord);
      TailCloseExtends(s, t, k + |SceneWord|);
    } else {
      TailBaseExtends(s, t, k + 1);
    }
  }

  lemma {:induction false} TailParenExtends(s: string, t: string, k: nat)
    requires TailParen(s, k)
    ensures TailParen(s + t, k)
    decreases |s| - k
  {
    if TailBase(s, k) {
      TailBaseExtends(s, t, k);
    } else {
      TailParenExtends(s, t, k + 1);
    }
  }

  lemma {:induction false} TailOpenExtends(s: string, t: string, k: nat)
    requires TailOpen(s, k)
    ensures TailOpen(s + t, k)
    decreases |s| - k
  {
    if s[k] == '(' && TailParen(s, k + 1) {
      TailParenExtends(s, t, k + 1);
    } else {
      TailOpenExtends(s, t, k + 1);
    }
  }

  lemma {:induction false} SpacesGroupExtends(s: string, t: string, k: nat, name: string)
    requires SpacesGroup(s, k, name)
    ensures SpacesGroup(s + t, k, name)
    decreases |s| - k
  {
    if GroupAt(s, k, name) {
      LiteralAtExtends(s, t, k, name);
      TailOpenExtends(s, t, k + |name|);
    } else {
      SpacesGroupExtends(s, t, k + 1, name);
    }
  }

  /** Text appended after a match leaves it a match: the pattern ends at its
      colon and looks no further. */
  lemma {:induction false} MatchesAtExtends(s: string, t: string, i: nat, name: string)
    requires MatchesAt(s, i, name)
    ensures MatchesAt(s + t, i, name)
  {
    LiteralAtExtends(s, t, i, ClassWord);
    SpacesGroupExtends(s, t, i + |ClassWord| + 1, name);
  }

  /** A text that starts with a well-formed header yields the header's class
      name. */
  lemma {:induction false} LeadingHeaderFound(name: string, base: string, rest: string)
    requires IsWord(name) && IsIdentifier(base) && EndsWith(base, SceneWord)
    ensures SceneClassName(Header(name, base) + rest) == Some(name)
  {
    var s := Header(name, base) + rest;
    HeaderMatches([], name, base);
    assert [] + Header(name, base) == Header(name, base);
    MatchesAtExtends(Header(name, base), rest, 0, name);
    SearchFindsFirst(s, 0, name);
  }

  /** Where the parts of a header sit in the text. */
  lemma {:induction false} HeaderLayout(pre: string, name: string, base: string)
    ensures
      var s := pre + Header(name, base);
      var p := |pre|;
      var g := p + |ClassWord| + 1;
      var b := g + |name| + 1;
      var e := b + |base|;
      && |s| == e + 2
      && s[p..p + |ClassWord|] == ClassWord && s[g - 1] == ' '
      && s[g..g + |name|] == name && s[b - 1] == '('
      && s[b..e] == base && s[e] == ')' && s[e + 1] == ':'
  {
    var s := pre + Header(name, base);
    assert s == pre + ClassWord + " " + name + "(" + base + "):";
  }

  /** `<base>):` at `b` matches the base-class part of the pattern. */
  lemma {:induction false} BaseMatches(s: string, b: nat, base: string)
    requires IsIdentifier(base) && EndsWith(base, SceneWord)
    requires |s| == b + |base| + 2 && s[b..b + |base|] == base
    requires s[b + |base|] == ')' && s[b + |base| + 1] == ':'
    ensures TailBase(s, b)
  {
    var e := b + |base|;
    var m := e - |SceneWord|;
    assert TailClose(s, e);
    assert LiteralAt(s, m, SceneWord) by {
      assert s[m..e] == base[|base| - |SceneWord|..];
    }
    assert AllIn(s, b, m, Ident) by {
      forall j | b <= j < m
        ensures In(s[j], Ident)
      {
        assert s[j] == base[j - b];
      }
    }
    TailBaseBack(s, b, m);
  }

  /** `class <name>(<base><junk><rest>`: a header whose base-class part is
      cut short by the character `junk`. */
  function BrokenHeader(name: string, base: string, junk: char, rest: string): string
  {
    ClassWord + " " + name + "(" + base + [junk] + rest
  }

  /** An identifier run stopped by a character that is neither whitespace
      nor `)` is not a base-class match. */
  lemma {:induction false} BaseRejected(s: string, k: nat, d: nat)
    requires k <= d < |s| && AllIn(s, k, d, Ident)
    requires !IsIdentChar(s[d]) && !IsSpace(s[d]) && s[d] != ')'
    ensures !TailBase(s, k)
  {
    RunEndUnique(s, k, Ident, d);
    assert RunEnd(s, d, Space) == d;
    BaseCorrect(s, k);
  }

  /** A base-class part cut short by a character such as `.` or `,` is
      rejected, so a dotted base such as `manim.Scene` and a second base
      are not matched. */
  lemma {:induction false} BrokenHeaderRejected(pre: string, name: string, base: string, junk: char, rest: string)
    requires IsWord(name) && IsIdentifier(base)
    requires !IsIdentChar(junk) && !IsSpace(junk) && junk != ')'
    ensures MatchAt(pre + BrokenHeader(name, base, junk, rest), |pre|) == None
  {
    var s := pre + BrokenHeader(name, base, junk, rest);
    var g := |pre| + |ClassWord| + 1;
    var b := g + |name| + 1;
    var d := b + |base|;
    BrokenLayout(pre, name, base, junk, rest);
    assert AllIn(s, b, d, Ident) by {
      forall j | b <= j < d
        ensures In(s[j], Ident)
      {
        assert s[j] == base[j - b];
      }
    }
    assert AllIn(s, g, b - 1, Word) by {
      forall j | g <= j < b - 1
        ensures In(s[j], Word)
      {
        assert s[j] == name[j - g];
      }
    }
    RejectedAt(s, |pre|, g, b, d);
  }

  /** The matcher's view of a cut-short header: the class name is read, but
      no `(` followed by a base ending in `Scene` comes after it. */
  lemma {:induction false} RejectedAt(s: string, p: nat, g: nat, b: nat, d: nat)
    requires g == p + |ClassWord| + 1 && g < b - 1 && b <= d < |s|
    requires s[g - 1] == ' ' && AllIn(s, g, b - 1, Word)
    requires s[b - 1] == '(' && AllIn(s, b, d, Ident)
    requires !IsIdentChar(s[d]) && !IsSpace(s[d]) && s[d] != ')'
    ensures MatchAt(s, p) == None
  {
    NoOpenAt(s, b, d);
    RunEndUnique(s, g, Word, b - 1);
    SpaceIsNotWord(s[g]);
    RunEndUnique(s, p + |ClassWord|, Space, g);
  }

  lemma {:induction false} NoOpenAt(s: string, b: nat, d: nat)
    requires 0 < b <= d < |s| && s[b - 1] == '(' && AllIn(s, b, d, Ident)
    requires !IsIdentChar(s[d]) && !IsSpace(s[d]) && s[d] != ')'
    ensures !OpenAhead(s, b - 1)
  {
    BaseRejected(s, b, d);
    SpaceIsNotWord(s[b]);
    assert !TailOpen(s, b - 1);
    OpenCorrect(s, b - 1);
  }

  /** Where the parts of a cut-short header sit in the text. */
  lemma {:induction false} BrokenLayout(pre: string, name: string, base: string, junk: char, rest: string)
    ensures
      var s := pre + BrokenHeader(name, base, junk, rest);
      var p := |pre|;
      var g := p + |ClassWord| + 1;
      var b := g + |name| + 1;
      var d := b + |base|;
      && d < |s|
      && s[p..p + |ClassWord|] == ClassWord && s[g - 1] == ' '
      && s[g..g + |name|] == name && s[b - 1] == '('
      && s[b..d] == base && s[d] == junk
  {
    var s := pre + BrokenHeader(name, base, junk, rest);
    assert s == pre + ClassWord + " " + name + "(" + base + [junk] + rest;
  }

  /** After position `k`, one or more whitespace characters and then
      `name`, a non-empty run of word characters that no word character
      follows. */
  ghost predicate LongestWordAfterSpace(s: string, k: nat, name: string) {
    exists a | k < a && a + |name| <= |s| ::
      && AllIn(s, k, a, Space)
      && IsWord(name) && s[a..a + |name|] == name
      && (a + |name| == |s| || !IsWordChar(s[a + |name|]))
  }

  /** The extracted class name is the longest non-empty run of word
      characters that follows `class` and its whitespace at the leftmost
      match. */
  lemma {:induction false} ExtractedNameShape(code: string)
    requires SceneClassName(code).Some?
    ensures
      var m := Search(code).value;
      && SceneClassName(code).value == m.name
      && LiteralAt(code, m.start, ClassWord)
      && LongestWordAfterSpace(code, m.start + |ClassWord|, m.name)
  {
    var m := Search(code).value;
    MatchAtShape(code, m.start, m.name);
  }

  lemma {:induction false} MatchAtShape(s: string, i: nat, name: string)
    requires MatchAt(s, i) == Some(name)
    ensures LiteralAt(s, i, ClassWord)
    ensures LongestWordAfterSpace(s, i + |ClassWord|, name)
  {
    var c := i + |ClassWord|;
    var a := RunEnd(s, c, Space);
    GroupShape(s, a, name);
    RunEndSpec(s, c, Space);
  }

  /** The group the matcher reports is a longest word run. */
  lemma {:induction false} GroupShape(s: string, a: nat, name: string)
    requires a <= |s| && GroupOp(s, a) == Some(name)
    ensures a + |name| <= |s| && IsWord(name) && s[a..a + |name|] == name
    ensures a + |name| == |s| || !IsWordChar(s[a + |name|])
  {
    var b := RunEnd(s, a, Word);
    RunEndSpec(s, a, Word);
    forall j | 0 <= j < |name|
      ensures IsWordChar(name[j])
    {
      assert name[j] == s[a + j];
    }
  }

}

=== FILE: schema.dfy ===
/**
 The tool-schema bridge of the client: `clean_schema`, which strips the
 presentation-only `"title"` keyword (section 9.1 of JSON Schema Validation,
 draft 2020-12) from a tool's input schema, and
 `convert_mcp_tools_to_gemini`, which turns every tool descriptor into a
 one-declaration tool wrapper for the language model.
 */
module Schema {
  import opened Options

  /** A JSON value. A mapping is an ordered sequence of members, as a Python
      `dict` keeps insertion order; numbers are abstracted to integers. */
  datatype Json =
    | JNull
    | JBool(b: bool)
    | JNumber(n: int)
    | JString(s: string)
    | JArray(items: seq<Json>)
    | JObject(members: seq<Member>)

  datatype Member = Member(key: string, value: Json)

  const TitleKey: string := "title"
  const PropertiesKey: string := "properties"

  /** `clean_schema` calls `.items()` on the value of `"properties"`; when that
      value is not a mapping Python raises `AttributeError`. */
  datatype SchemaError = PropertiesNotMapping

  /** The key set of a mapping. */
  function Keys(ms: seq<Member>): set<string>
  {
    if ms == [] then {} else {ms[0].key} + Keys(ms[1..])
  }

  /** `d.get(k)`: the value of the first member with key `k`. */
  function Lookup(ms: seq<Member>, k: string): (r: Option<Json>)
    ensures r.Some? <==> k in Keys(ms)
  {
    if ms == [] then None
    else if ms[0].key == k then Some(ms[0].value)
    else Lookup(ms[1..], k)
  }

  // ---------------------------------------------------------------------
  // When `clean_schema` returns instead of raising
  // ---------------------------------------------------------------------

  /** Every `"properties"` value that `clean_schema` reaches is a mapping. */
  predicate Cleanable(j: Json)
    decreases j, 1
  {
    match j
    case JObject(ms) => MembersCleanable(ms)
    case _ => true
  }

  predicate MembersCleanable(ms: seq<Member>)
    decreases ms, 0
  {
    ms == [] ||
    (&& (ms[0].key == PropertiesKey ==>
           ms[0].value.JObject? && ValuesCleanable(ms[0].value.members))
     && MembersCleanable(ms[1..]))
  }

  predicate ValuesCleanable(ps: seq<Member>)
    decreases ps, 0
  {
    ps == [] || (Cleanable(ps[0].value) && ValuesCleanable(ps[1..]))
  }

  // ---------------------------------------------------------------------
  // clean_schema
  // ---------------------------------------------------------------------

  /** `clean_schema` on an input for which it does not raise. A non-mapping is
      returned unchanged; a mapping loses its `"title"` and has every value of
      its `"properties"` mapping cleaned in turn. */
  function Clean(j: Json): (r: Json)
    requires Cleanable(j)
    ensures Cleanable(r)
    ensures !j.JObject? ==> r == j
    ensures j.JObject? ==> r.JObject? && Keys(r.members) == Keys(j.members) - {TitleKey}
    decreases j, 1
  {
    match j
    case JObject(ms) => JObject(CleanMembers(ms))
    case _ => j
  }

  /** The members of a cleaned mapping: titles dropped, the `"properties"`
      mapping's values cleaned, every other member kept as it is. */
  function CleanMembers(ms: seq<Member>): (r: seq<Member>)
    requires MembersCleanable(ms)
    ensures MembersCleanable(r)
    ensures Keys(r) == Keys(ms) - {TitleKey}
    ensures TitleKey !in Keys(r)
    decreases ms, 0
  {
    if ms == [] then []
    else
      var rest := CleanMembers(ms[1..]);
      if ms[0].key == TitleKey then rest
      else if ms[0].key == PropertiesKey then
        [Member(PropertiesKey, JObject(CleanValues(ms[0].value.members)))] + rest
      else [ms[0]] + rest
  }

  /** The values of a `"properties"` mapping, each cleaned, under the same keys
      in the same order. */
  function CleanValues(ps: seq<Member>): (r: seq<Member>)
    requires ValuesCleanable(ps)
    ensures ValuesCleanable(r)
    ensures |r| == |ps|
    ensures forall i | 0 <= i < |ps| :: r[i].key == ps[i].key
    ensures forall i | 0 <= i < |ps| :: Cleanable(ps[i].value) && r[i].value == Clean(ps[i].value)
    ensures Keys(r) == Keys(ps)
    decreases ps, 0
  {
    if ps == [] then []
    else [Member(ps[0].key, Clean(ps[0].value))] + CleanValues(ps[1..])
  }

  /** `clean_schema` as the source runs it, with its failure made explicit:
      a mapping loses `"title"`, then `.items()` is called on the value of
      `"properties"` (which fails unless that value is a mapping) and each of
      its values is cleaned in turn; the first failure ends the call. It
      returns exactly when `Cleanable` holds, and then returns `Clean`. */
  function CleanSchema(j: Json): (r: Result<Json, SchemaError>)
    ensures r.Ok? <==> Cleanable(j)
    ensures r.Ok? ==> r.value == Clean(j)
    decreases j, 1
  {
    match j
    case JObject(ms) =>
      (match CleanSchemaMembers(ms)
       case Ok(cleaned) => Ok(JObject(cleaned))
       case Err(e) => Err(e))
    case _ => Ok(j)
  }

  function CleanSchemaMembers(ms: seq<Member>): (r: Result<seq<Member>, SchemaError>)
    ensures r.Ok? <==> MembersCleanable(ms)
    ensures r.Ok? ==> r.value == CleanMembers(ms)
    decreases ms, 0
  {
    if ms == [] then Ok([])
    else if ms[0].key == TitleKey then CleanSchemaMembers(ms[1..])
    else if ms[0].key == PropertiesKey then
      match ms[0].value
      case JObject(ps) =>
        (match CleanSchemaValues(ps)
         case Err(e) => Err(e)
         case Ok(cleaned) =>
           (match CleanSchemaMembers(ms[1..])
            case Err(e) => Err(e)
            case Ok(rest) => Ok([Member(PropertiesKey, JObject(cleaned))] + rest)))
      case _ => Err(PropertiesNotMapping)
    else
      match CleanSchemaMembers(ms[1..])
      case Err(e) => Err(e)
      case Ok(rest) => Ok([ms[0]] + rest)
  }

  function CleanSchemaValues(ps: seq<Member>): (r: Result<seq<Member>, SchemaError>)
    ensures r.Ok? <==> ValuesCleanable(ps)
    ensures r.Ok? ==> r.value == CleanValues(ps)
    decreases ps, 0
  {
    if ps == [] then Ok([])
    else
      match CleanSchema(ps[0].value)
      case Err(e) => Err(e)
      case Ok(v) =>
        (match CleanSchemaValues(ps[1..])
         case Err(e) => Err(e)
         case Ok(rest) => Ok([Member(ps[0].key, v)] + rest))
  }

  // ---------------------------------------------------------------------
  // Properties of clean_schema
  // ---------------------------------------------------------------------

  /** Members other than `"title"` and `"properties"` keep their values:
      in particular `"type"`, `"required"`, and any `"items"` or `"anyOf"`
      sub-schema, whose own titles are left in place. */
  lemma {:induction false} CleanKeepsOtherMembers(ms: seq<Member>, k: string)
    requires MembersCleanable(ms)
    requires k != TitleKey && k != PropertiesKey
    ensures Lookup(CleanMembers(ms), k) == Lookup(ms, k)
    decreases ms
  {
    if ms != [] {
      CleanKeepsOtherMembers(ms[1..], k);
    }
  }

  /** The `"properties"` mapping survives with the same keys in the same order,
      each value cleaned. */
  lemma {:induction false} CleanProperties(ms: seq<Member>)
    requires MembersCleanable(ms)
    requires PropertiesKey in Keys(ms)
    ensures Lookup(ms, PropertiesKey).value.JObject?
    ensures
      var ps := Lookup(ms, PropertiesKey).value.members;
      && ValuesCleanable(ps)
      && Lookup(CleanMembers(ms), PropertiesKey) == Some(JObject(CleanValues(ps)))
    decreases ms
  {
    if ms[0].key != PropertiesKey {
      CleanProperties(ms[1..]);
    }
  }

  /** The `"properties"` key set is unchanged by cleaning. */
  lemma {:induction false} PropertiesKeysKept(j: Json)
    requires Cleanable(j) && j.JObject? && PropertiesKey in Keys(j.members)
    ensures
      var before := Lookup(j.members, PropertiesKey).value;
      var after := Lookup(Clean(j).members, PropertiesKey);
      && after.Some? && before.JObject? && after.value.JObject?
      && Keys(after.value.members) == Keys(before.members)
  {
    CleanProperties(j.members);
  }

  /** Every value of the cleaned `"properties"` mapping that is itself a
      mapping has lost its `"title"`. */
  lemma {:induction false} PropertiesValuesUntitled(j: Json)
    requires Cleanable(j) && j.JObject? && PropertiesKey in Keys(j.members)
    ensures
      var after := Lookup(Clean(j).members, PropertiesKey);
      && after.Some? && after.value.JObject?
      && forall i | 0 <= i < |after.value.members| ::
           after.value.members[i].value.JObject? ==>
             TitleKey !in Keys(after.value.members[i].value.members)
  {
    CleanProperties(j.members);
    var ps := Lookup(j.members, PropertiesKey).value.members;
    var cs := CleanValues(ps);
    forall i | 0 <= i < |cs| && cs[i].value.JObject?
      ensures TitleKey !in Keys(cs[i].value.members)
    {
      assert cs[i].value == Clean(ps[i].value);
    }
  }

  /** `clean_schema` is idempotent. */
  lemma {:induction false} CleanIdempotent(j: Json)
    requires Cleanable(j)
    ensures Clean(Clean(j)) == Clean(j)
    decreases j, 1
  {
    match j
    case JObject(ms) => CleanMembersIdempotent(ms);
    case _ =>
  }

  lemma {:induction false} CleanMembersIdempotent(ms: seq<Member>)
    requires MembersCleanable(ms)
    ensures CleanMembers(CleanMembers(ms)) == CleanMembers(ms)
    decreases ms, 0
  {
    if ms != [] {
      CleanMembersIdempotent(ms[1..]);
      var rest := CleanMembers(ms[1..]);
      if ms[0].key == PropertiesKey {
        var ps := ms[0].value.members;
        CleanValuesIdempotent(ps);
        var head := Member(PropertiesKey, JObject(CleanValues(ps)));
        assert CleanMembers(ms) == [head] + rest;
        assert ([head] + rest)[1..] == rest;
      } else if ms[0].key != TitleKey {
        assert ([ms[0]] + rest)[1..] == rest;
      }
    }
  }

  lemma {:induction false} CleanValuesIdempotent(ps: seq<Member>)
    requires ValuesCleanable(ps)
    ensures CleanValues(CleanValues(ps)) == CleanValues(ps)
    decreases ps, 0
  {
    if ps != [] {
      CleanIdempotent(ps[0].value);
      CleanValuesIdempotent(ps[1..]);
      var r := CleanValues(ps);
      assert r[1..] == CleanValues(ps[1..]);
    }
  }

  // ---------------------------------------------------------------------
  // convert_mcp_tools_to_gemini
  // ---------------------------------------------------------------------

  /** A remote tool as listed by the tool host. */
  datatype ToolDescriptor = ToolDescriptor(name: string, description: string, inputSchema: Json)

  /** A function declaration the language model may call. */
  datatype FunctionDeclaration = FunctionDeclaration(name: string, description: string, parameters: Json)

  /** The model-side tool wrapper; the source always puts one declaration in it. */
  datatype ModelTool = ModelTool(functionDeclarations: seq<FunctionDeclaration>)

  /** The wrapper that tool `t` becomes. */
  function Declare(t: ToolDescriptor): ModelTool
    requires Cleanable(t.inputSchema)
  {
    ModelTool([FunctionDeclaration(t.name, t.description, Clean(t.inputSchema))])
  }

  /** `convert_mcp_tools_to_gemini`: one wrapper per tool, in order; it raises
      as soon as one tool's schema makes `clean_schema` raise. */
  method ConvertTools(tools: seq<ToolDescriptor>) returns (r: Result<seq<ModelTool>, SchemaError>)
    ensures r.Ok? <==> forall i | 0 <= i < |tools| :: Cleanable(tools[i].inputSchema)
    ensures r.Ok? ==> |r.value| == |tools|
    ensures r.Ok? ==> forall i | 0 <= i < |tools| ::
      && |r.value[i].functionDeclarations| == 1
      && r.value[i].functionDeclarations[0].name == tools[i].name
      && r.value[i].functionDeclarations[0].description == tools[i].description
      && r.value[i].functionDeclarations[0].parameters == Clean(tools[i].inputSchema)
  {
    var out: seq<ModelTool> := [];
    var i := 0;
    while i < |tools|
      invariant 0 <= i <= |tools|
      invariant |out| == i
      invariant forall k | 0 <= k < i :: Cleanable(tools[k].inputSchema) && out[k] == Declare(tools[k])
    {
      var params := CleanSchema(tools[i].inputSchema);
      if params.Err? {
        return Err(params.error);
      }
      out := out + [ModelTool([FunctionDeclaration(tools[i].name, tools[i].description, params.value)])];
      i := i + 1;
    }
    return Ok(out);
  }
}

=== FILE: server.dfy ===
/**
 The execution tool of the server, `execute_manim_code`, as a linear state
 machine over the abstract file system: reset the workspace, write the
 script, find the scene class, load the module, render, and look for the
 video. Loading and rendering run foreign code, so their outcome is an
 oracle value; so is the order in which the directory walk lists files.
 Every path through the machine ends in a reply tagged `Success:` or
 `Failed: `. The second tool, `cleanup_manim_temp_dir`, removes a directory.
 */
module Server {
  import opened Options
  import opened Text
  import opened FileSystem
  import opened SceneRegex
  import opened ToolReply

  /** `MANIM_MEDIA_SUBDIR`, `media/manim_tmp`, as path components. */
  const MediaSubdir: Path := ["media", "manim_tmp"]
  const ScriptName: string := "scene.py"
  const VideoSuffix: string := ".mp4"
  const FailedTag: string := "Failed: "
  const NoSceneReason: string := "no Scene subclass found."

  /** The working directory below the directory `base` of the server script. */
  function Workspace(base: Path): (ws: Path)
    ensures |ws| == |base| + 2 && ws[..|base|] == base
  {
    base + MediaSubdir
  }

  function ScriptPath(base: Path): (p: Path)
    ensures Below(p, Workspace(base)) && p[|p| - 1] == ScriptName
  {
    assert (Workspace(base) + [ScriptName])[..|Workspace(base)|] == Workspace(base);
    Workspace(base) + [ScriptName]
  }

  // ---------------------------------------------------------------------
  // Oracles for the foreign steps
  // ---------------------------------------------------------------------

  /** Executing the script as module `scene_mod`: either it defines some set
      of top-level names, or it raises with a message. Either way `left` is
      the file system it leaves behind, such as a compiled `__pycache__`
      entry or files the module itself writes. */
  datatype LoadOutcome =
    | Loaded(names: set<string>, left: Fs)
    | LoadRaises(message: string, left: Fs)

  /** Instantiating the scene class and rendering it under the temporary
      configuration: either it completes or it raises with a message, and
      `after` is the file system it leaves behind, partial movie files
      included. */
  datatype RenderOutcome =
    | Rendered(after: Fs)
    | RenderRaises(message: string, after: Fs)

  /** The outcomes of the foreign steps, and the order in which `os.walk`
      lists files. */
  datatype Oracle = Oracle(load: LoadOutcome, render: RenderOutcome, walk: seq<Path>)

  /** The steps of the machine, in the order it takes them. */
  datatype Step = Reset | Write | Extract | Load | Render | Discover

  const Pipeline: seq<Step> := [Reset, Write, Extract, Load, Render, Discover]

  /** How a run ends: with a video, with a render that left no video, or
      with an exception message. */
  datatype Outcome = Artifact(video: Path) | NoArtifact | Failure(reason: string)

  /** The outcome, the steps taken, and the file system the last step taken
      left behind. */
  datatype Run = Run(outcome: Outcome, trace: seq<Step>, fs: Fs)

  // ---------------------------------------------------------------------
  // Step 1: reset the workspace and write the script
  // ---------------------------------------------------------------------

  /** Remove the workspace if it exists, then create it again. */
  function ResetWorkspace(fs: Fs, ws: Path): Result<Fs, OsError>
  {
    var cleared := if Exists(fs, ws) then RemoveTree(fs, ws) else Ok(fs);
    match cleared
    case Err(e) => Err(e)
    case Ok(fs1) => MakeDirs(fs1, ws)
  }

  /** `ws` is a directory holding exactly one entry, the script `script`
      with contents `code`. */
  predicate HoldsOnlyScript(fs: Fs, ws: Path, script: Path, code: string) {
    && ws in fs.dirs
    && script in fs.files && fs.files[script] == code
    && (forall p | p in fs.dirs :: !Below(p, ws))
    && (forall p | p in fs.files && Below(p, ws) :: p == script)
  }

  /** Files away from `d` and directories neither below nor above `d` are the
      same in both states. */
  ghost predicate SameOutside(a: Fs, b: Fs, d: Path) {
    && (forall p | !Under(p, d) :: (p in a.files <==> p in b.files))
    && (forall p | !Under(p, d) && p in a.files :: p in b.files && a.files[p] == b.files[p])
    && (forall p | !Under(p, d) && !Under(d, p) :: (p in a.dirs <==> p in b.dirs))
  }

  /** On a well-formed tree the reset fails exactly when the workspace path
      runs into a regular file; otherwise it leaves an empty workspace, keeps
      every file elsewhere and every directory neither inside nor above the
      workspace, and creates the missing directories above it. */
  lemma {:induction false} ResetWorkspaceSpec(fs: Fs, ws: Path)
    requires Valid(fs) && ws != []
    ensures ResetWorkspace(fs, ws).Ok? <==> !BlockedByFile(fs, ws)
    ensures ResetWorkspace(fs, ws).Ok? ==>
      var r := ResetWorkspace(fs, ws).value;
      && Valid(r) && ws in r.dirs
      && (forall p | Below(p, ws) :: !Exists(r, p))
      && SameOutside(fs, r, ws)
  {
    if Exists(fs, ws) {
      if ws in fs.files {
        assert ws[..|ws|] == ws;
      } else {
        ResetExisting(fs, ws);
      }
    } else {
      ResetMissing(fs, ws);
    }
  }

  lemma {:induction false} ResetExisting(fs: Fs, ws: Path)
    requires Valid(fs) && ws != [] && ws in fs.dirs
    ensures !BlockedByFile(fs, ws)
    ensures ResetWorkspace(fs, ws).Ok?
    ensures
      var r := ResetWorkspace(fs, ws).value;
      && Valid(r) && ws in r.dirs
      && (forall p | Below(p, ws) :: !Exists(r, p))
      && SameOutside(fs, r, ws)
  {
    AncestorsAreDirs(fs, ws);
    var fs1 := RemoveTree(fs, ws).value;
    RemoveTreeValid(fs, ws);
    assert !BlockedByFile(fs1, ws) by {
      forall k | 0 < k <= |ws| ensures ws[..k] !in fs1.files {
        if k < |ws| {
          assert !Under(ws[..k], ws);
        } else {
          assert ws[..k] == ws;
        }
      }
    }
    MakeDirsSpec(fs1, ws);
    assert Ancestry(ws) <= fs.dirs;
    forall p | !Under(p, ws) && !Under(ws, p)
      ensures p !in Ancestry(ws)
    {
    }
  }

  lemma {:induction false} ResetMissing(fs: Fs, ws: Path)
    requires Valid(fs) && ws != [] && !Exists(fs, ws)
    ensures ResetWorkspace(fs, ws).Ok? <==> !BlockedByFile(fs, ws)
    ensures ResetWorkspace(fs, ws).Ok? ==>
      var r := ResetWorkspace(fs, ws).value;
      && Valid(r) && ws in r.dirs
      && (forall p | Below(p, ws) :: !Exists(r, p))
      && SameOutside(fs, r, ws)
  {
    MakeDirsSpec(fs, ws);
    if !BlockedByFile(fs, ws) {
      var r := ResetWorkspace(fs, ws).value;
      forall p | Below(p, ws) ensures !Exists(r, p) {
        MissingHasNoEntries(fs, ws, p);
      }
      forall p | !Under(p, ws) && !Under(ws, p)
        ensures p !in Ancestry(ws)
      {
      }
    }
  }

  /** Reset the workspace and write the script into it. */
  function PrepareScript(fs: Fs, base: Path, code: string): Result<Fs, OsError>
  {
    match ResetWorkspace(fs, Workspace(base))
    case Err(e) => Err(e)
    case Ok(fs1) => WriteFile(fs1, ScriptPath(base), code)
  }

  /** Whatever the workspace held before, after the reset and the write it
      holds exactly `scene.py` with the code verbatim; files elsewhere and
      directories neither inside nor above the workspace are unchanged. The
      two steps fail only when the workspace path runs into a regular file. */
  lemma {:induction false} PrepareScriptSpec(fs: Fs, base: Path, code: string)
    requires Valid(fs)
    ensures PrepareScript(fs, base, code).Ok? <==> !BlockedByFile(fs, Workspace(base))
    ensures PrepareScript(fs, base, code).Ok? ==>
      var r := PrepareScript(fs, base, code).value;
      && Valid(r)
      && HoldsOnlyScript(r, Workspace(base), ScriptPath(base), code)
      && SameOutside(fs, r, Workspace(base))
  {
    var ws := Workspace(base);
    ResetWorkspaceSpec(fs, ws);
    if !BlockedByFile(fs, ws) {
      var fs1 := ResetWorkspace(fs, ws).value;
      var script := ScriptPath(base);
      assert script[..|script| - 1] == ws;
      assert !ThroughFile(fs1, script) by {
        forall k | 0 < k < |script| ensures script[..k] !in fs1.files {
          if k == |ws| {
            assert script[..k] == ws;
          } else {
            assert script[..k] == ws[..k];
            assert !Under(script[..k], ws);
          }
        }
      }
      WriteFileValid(fs1, script, code);
    }
  }

  /** The reset and the write succeed on a well-formed tree whose workspace
      path does not run into a regular file. */
  lemma {:induction false} PrepareScriptOk(fs: Fs, base: Path, code: string)
    requires Valid(fs) && !BlockedByFile(fs, Workspace(base))
    ensures PrepareScript(fs, base, code).Ok?
  {
    PrepareScriptSpec(fs, base, code);
  }

  // ---------------------------------------------------------------------
  // The whole machine
  // ---------------------------------------------------------------------

  /** `getattr` on a module that lacks the name raises `AttributeError`. */
  function MissingAttribute(name: string): string
  {
    "module 'scene_mod' has no attribute '" + name + "'"
  }

  /** A file in the walked tree whose name ends in `.mp4`. */
  predicate IsVideo(fs: Fs, ws: Path, p: Path) {
    p in fs.files && Below(p, ws) && EndsWith(p[|p| - 1], VideoSuffix)
  }

  /** The index of the first video the walk lists at or after `from`. */
  function FirstVideoFrom(fs: Fs, ws: Path, walk: seq<Path>, from: nat): (r: Option<nat>)
    requires from <= |walk|
    ensures r.Some? ==> from <= r.value < |walk| && IsVideo(fs, ws, walk[r.value])
    ensures forall j | from <= j < |walk| && (r.None? || j < r.value) :: !IsVideo(fs, ws, walk[j])
    decreases |walk| - from
  {
    if from == |walk| then None
    else if IsVideo(fs, ws, walk[from]) then Some(from)
    else FirstVideoFrom(fs, ws, walk, from + 1)
  }

  /** The index of the first video the walk lists. */
  function FirstVideo(fs: Fs, ws: Path, walk: seq<Path>): Option<nat>
  {
    FirstVideoFrom(fs, ws, walk, 0)
  }

  /** Look for the first video below the workspace, in walk order. */
  function DiscoverVideo(fs: Fs, ws: Path, walk: seq<Path>): Outcome
  {
    match FirstVideo(fs, ws, walk)
    case Some(i) => Artifact(walk[i])
    case None => NoArtifact
  }

  /** `execute_manim_code`: the steps in order, each one able to end the run
      with a failure. */
  function Execute(fs: Fs, base: Path, code: string, oracle: Oracle): (run: Run)
    ensures 1 <= |run.trace| <= |Pipeline| && run.trace == Pipeline[..|run.trace|]
    ensures !run.outcome.Failure? ==> run.trace == Pipeline
    ensures Load in run.trace ==> SceneClassName(code).Some?
  {
    match PrepareScript(fs, base, code)
    case Err(e) =>
      var trace := if ResetWorkspace(fs, Workspace(base)).Err? then [Reset] else [Reset, Write];
      Run(Failure(ErrorText(e)), trace, fs)
    case Ok(fs2) =>
      match SceneClassName(code)
      case None => Run(Failure(NoSceneReason), [Reset, Write, Extract], fs2)
      case Some(name) => Launch(fs2, base, name, oracle)
  }

  /** Load the module, fetch the class, render, and look for the video. The
      foreign steps start from the prepared tree `fs`; the tree a run ends
      with is the one the last step taken left behind. */
  function Launch(fs: Fs, base: Path, name: string, oracle: Oracle): (run: Run)
    ensures Pipeline[..4] <= run.trace <= Pipeline
  {
    match oracle.load
    case LoadRaises(m, left) => Run(Failure(m), Pipeline[..4], left)
    case Loaded(names, left) =>
      if name !in names then Run(Failure(MissingAttribute(name)), Pipeline[..4], left)
      else match oracle.render
        case RenderRaises(m, after) => Run(Failure(m), Pipeline[..5], after)
        case Rendered(after) => Run(DiscoverVideo(after, Workspace(base), oracle.walk), Pipeline, after)
  }

  /** The string the tool returns for an outcome. */
  function Reply(base: Path, outcome: Outcome): (reply: string)
    ensures StartsWith(reply, SuccessTag) <==> !outcome.Failure?
    ensures StartsWith(reply, FailedTag) <==> outcome.Failure?
  {
    match outcome
    case Artifact(p) =>
      assert (SuccessTag + PathText(p))[..|SuccessTag|] == SuccessTag;
      SuccessTag + PathText(p)
    case NoArtifact =>
      assert (SuccessTag + PathText(Workspace(base)) + " (no mp4 found)")[..|SuccessTag|] == SuccessTag;
      SuccessTag + PathText(Workspace(base)) + " (no mp4 found)"
    case Failure(r) =>
      assert (FailedTag + r)[..|FailedTag|] == FailedTag;
      FailedTag + r
  }

  /** The reply of `execute_manim_code`. */
  function ExecuteManimCode(fs: Fs, base: Path, code: string, oracle: Oracle): (reply: string)
    ensures StartsWith(reply, SuccessTag) || StartsWith(reply, FailedTag)
  {
    Reply(base, Execute(fs, base, code, oracle).outcome)
  }

  // ---------------------------------------------------------------------
  // Properties of the machine
  // ---------------------------------------------------------------------

  /** Every reply carries exactly one of the two tags; which one tells
      whether the run failed. */
  lemma {:induction false} ReplyTagged(fs: Fs, base: Path, code: string, oracle: Oracle)
    ensures
      var run := Execute(fs, base, code, oracle);
      var reply := ExecuteManimCode(fs, base, code, oracle);
      && (StartsWith(reply, SuccessTag) <==> !run.outcome.Failure?)
      && (StartsWith(reply, FailedTag) <==> run.outcome.Failure?)
      && (StartsWith(reply, SuccessTag) ==> !StartsWith(reply, FailedTag))
  {
  }

  /** Without a scene class the run stops after extraction: the reply is the
      fixed failure, nothing is loaded or rendered, and the workspace holds
      only the script. */
  lemma {:induction false} NoSceneNoRender(fs: Fs, base: Path, code: string, oracle: Oracle)
    requires Valid(fs) && !BlockedByFile(fs, Workspace(base))
    requires SceneClassName(code) == None
    ensures ExecuteManimCode(fs, base, code, oracle) == "Failed: no Scene subclass found."
    ensures Execute(fs, base, code, oracle).trace == [Reset, Write, Extract]
    ensures HoldsOnlyScript(Execute(fs, base, code, oracle).fs, Workspace(base), ScriptPath(base), code)
  {
    PrepareScriptSpec(fs, base, code);
    NoSceneReplyText();
  }

  /** The fixed failure reply, spelled out. */
  lemma {:induction false} NoSceneReplyText()
    ensures FailedTag + NoSceneReason == "Failed: no Scene subclass found."
  {
  }

  /** A load that raises ends the run with its message. */
  lemma {:induction false} LoadFailureReported(fs: Fs, base: Path, code: string, oracle: Oracle, name: string, m: string)
    requires Valid(fs) && !BlockedByFile(fs, Workspace(base))
    requires SceneClassName(code) == Some(name)
    requires oracle.load.LoadRaises? && oracle.load.message == m
    ensures ExecuteManimCode(fs, base, code, oracle) == FailedTag + m
    ensures Render !in Execute(fs, base, code, oracle).trace
  {
    PrepareScriptOk(fs, base, code);
    LoadFailureAfterPrepare(fs, base, code, oracle, name, m);
  }

  lemma {:induction false} LoadFailureAfterPrepare(fs: Fs, base: Path, code: string, oracle: Oracle, name: string, m: string)
    requires PrepareScript(fs, base, code).Ok?
    requires SceneClassName(code) == Some(name)
    requires oracle.load.LoadRaises? && oracle.load.message == m
    ensures ExecuteManimCode(fs, base, code, oracle) == FailedTag + m
    ensures Render !in Execute(fs, base, code, oracle).trace
  {
  }

  /** A module that does not define the matched name fails on `getattr`. */
  lemma {:induction false} MissingClassReported(fs: Fs, base: Path, code: string, oracle: Oracle, name: string)
    requires PrepareScript(fs, base, code).Ok?
    requires SceneClassName(code) == Some(name)
    requires oracle.load.Loaded? && name !in oracle.load.names
    ensures ExecuteManimCode(fs, base, code, oracle) == FailedTag + MissingAttribute(name)
    ensures Render !in Execute(fs, base, code, oracle).trace
  {
  }

  /** A render that raises ends the run with its message. */
  lemma {:induction false} RenderFailureReported(fs: Fs, base: Path, code: string, oracle: Oracle, name: string, m: string)
    requires PrepareScript(fs, base, code).Ok?
    requires SceneClassName(code) == Some(name)
    requires oracle.load.Loaded? && name in oracle.load.names
    requires oracle.render.RenderRaises? && oracle.render.message == m
    ensures ExecuteManimCode(fs, base, code, oracle) == FailedTag + m
  {
  }

  /** A failed reset is reported with the operating system's message. */
  lemma {:induction false} ResetFailureReported(fs: Fs, base: Path, code: string, oracle: Oracle)
    requires ResetWorkspace(fs, Workspace(base)).Err?
    ensures ExecuteManimCode(fs, base, code, oracle) ==
      FailedTag + ErrorText(ResetWorkspace(fs, Workspace(base)).error)
    ensures Execute(fs, base, code, oracle).trace == [Reset]
  {
  }

  /** The walk lists exactly the files below the workspace. */
  predicate WalkOf(fs: Fs, ws: Path, walk: seq<Path>) {
    && (forall i | 0 <= i < |walk| :: walk[i] in fs.files && Below(walk[i], ws))
    && (forall p | p in fs.files && Below(p, ws) :: p in walk)
  }

  /** When the walk lists the whole tree, the search reports no video exactly
      when no file below the workspace, at any depth, is named `*.mp4`. */
  lemma {:induction false} DiscoveryFindsAnyVideo(fs: Fs, ws: Path, walk: seq<Path>)
    requires WalkOf(fs, ws, walk)
    ensures DiscoverVideo(fs, ws, walk) == NoArtifact <==>
      forall p | p in fs.files && Below(p, ws) :: !EndsWith(p[|p| - 1], VideoSuffix)
  {
    if FirstVideo(fs, ws, walk).None? {
      forall p | p in fs.files && Below(p, ws) ensures !EndsWith(p[|p| - 1], VideoSuffix) {
        var i :| 0 <= i < |walk| && walk[i] == p;
        assert !IsVideo(fs, ws, walk[i]);
      }
    }
  }

  /** The video reported is the first file in walk order named `*.mp4`. */
  lemma {:induction false} DiscoveryTakesFirst(fs: Fs, ws: Path, walk: seq<Path>)
    requires WalkOf(fs, ws, walk)
    requires DiscoverVideo(fs, ws, walk).Artifact?
    ensures
      var i := FirstVideo(fs, ws, walk).value;
      && i < |walk|
      && DiscoverVideo(fs, ws, walk) == Artifact(walk[i])
      && EndsWith(walk[i][|walk[i]| - 1], VideoSuffix)
      && forall j | 0 <= j < i :: !EndsWith(walk[j][|walk[j]| - 1], VideoSuffix)
  {
    var i := FirstVideo(fs, ws, walk).value;
    forall j | 0 <= j < i ensures !EndsWith(walk[j][|walk[j]| - 1], VideoSuffix) {
      assert !IsVideo(fs, ws, walk[j]);
    }
  }

  /** After a successful render the reply names the first video the walk
      lists, or the workspace with the `(no mp4 found)` note. */
  lemma {:induction false} RenderedReply(fs: Fs, base: Path, code: string, oracle: Oracle, name: string)
    requires PrepareScript(fs, base, code).Ok?
    requires SceneClassName(code) == Some(name)
    requires oracle.load.Loaded? && name in oracle.load.names
    requires oracle.render.Rendered?
    ensures
      var reply := ExecuteManimCode(fs, base, code, oracle);
      var found := FirstVideo(oracle.render.after, Workspace(base), oracle.walk);
      && (found.Some? ==> reply == SuccessTag + PathText(oracle.walk[found.value]))
      && (found.None? ==> reply == SuccessTag + PathText(Workspace(base)) + " (no mp4 found)")
    ensures Execute(fs, base, code, oracle).trace == Pipeline
  {
    var after := oracle.render.after;
    assert Execute(fs, base, code, oracle) ==
      Run(DiscoverVideo(after, Workspace(base), oracle.walk), Pipeline, after);
  }

  // ---------------------------------------------------------------------
  // cleanup_manim_temp_dir
  // ---------------------------------------------------------------------

  /** The reply and the file system after a cleanup. */
  datatype Cleaned = Cleaned(reply: string, fs: Fs)

  /** `cleanup_manim_temp_dir(d)`: remove `d` if it exists. */
  function Cleanup(fs: Fs, d: Path): (c: Cleaned)
    ensures !Exists(fs, d) ==> c == Cleaned("Directory not found: " + PathText(d), fs)
  {
    if Exists(fs, d) then
      match RemoveTree(fs, d)
      case Ok(fs1) => Cleaned("Cleanup successful for directory: " + PathText(d), fs1)
      case Err(e) =>
        Cleaned("Failed to clean up directory: " + PathText(d) + ". Error: " + ErrorText(e), fs)
    else Cleaned("Directory not found: " + PathText(d), fs)
  }

  /** An existing directory is removed with everything in it, and nothing
      else is touched. */
  lemma {:induction false} CleanupRemovesDirectory(fs: Fs, d: Path)
    requires Valid(fs) && d != [] && d in fs.dirs
    ensures Cleanup(fs, d).reply == "Cleanup successful for directory: " + PathText(d)
    ensures forall p | Under(p, d) :: !Exists(Cleanup(fs, d).fs, p)
    ensures SameOutside(fs, Cleanup(fs, d).fs, d)
    ensures Valid(Cleanup(fs, d).fs)
  {
    RemoveTreeValid(fs, d);
  }

  /** Unless the first call failed, a second cleanup of the same path
      reports it missing. */
  lemma {:induction false} CleanupTwice(fs: Fs, d: Path)
    ensures
      || (Exists(fs, d) && RemoveTree(fs, d).Err?)
      || Cleanup(Cleanup(fs, d).fs, d).reply == "Directory not found: " + PathText(d)
  {
  }

  /** A path that exists but is not a removable directory is reported with
      the error `rmtree` raised, and nothing changes. */
  lemma {:induction false} CleanupFailureReported(fs: Fs, d: Path)
    requires Exists(fs, d) && RemoveTree(fs, d).Err?
    ensures Cleanup(fs, d) ==
      Cleaned("Failed to clean up directory: " + PathText(d) + ". Error: " + ErrorText(RemoveTree(fs, d).error), fs)
  {
  }

  /** A regular file given as the directory fails with `Not a directory`. */
  lemma {:induction false} CleanupOfFile(fs: Fs, d: Path)
    requires d != [] && d in fs.files && d !in fs.dirs
    ensures Cleanup(fs, d).reply ==
      "Failed to clean up directory: " + PathText(d) + ". Error: " + ErrorText(NotADirectory(d))
  {
  }
}

=== FILE: text.dfy ===
/**
 Character classes and string helpers shared by the client and the server:
 Python's `str.isspace` (which is also what the regular-expression class `\s`
 matches), the word-character class `\w`, `str.strip`, `str.startswith`,
 `str.endswith` and `str.lower`.
 */
module Text {

  /** Python's `str.isspace` for one character, and the class `\s` of the `re`
      module on `str` patterns. The list is Python's complete one: the ASCII
      controls 9-13 and 28-31, the space, and the Unicode separators. */
  predicate IsSpace(c: char) {
    c in SpaceChars
  }

  const SpaceChars: set<char> := {
    '\t', '\n', '\U{0B}', '\U{0C}', '\r',
    '\U{1C}', '\U{1D}', '\U{1E}', '\U{1F}', ' ',
    '\U{85}', '\U{A0}', '\U{1680}',
    '\U{2000}', '\U{2001}', '\U{2002}', '\U{2003}', '\U{2004}', '\U{2005}',
    '\U{2006}', '\U{2007}', '\U{2008}', '\U{2009}', '\U{200A}',
    '\U{2028}', '\U{2029}', '\U{202F}', '\U{205F}', '\U{3000}'
  }

  /** No printable ASCII character is whitespace. */
  lemma {:induction false} PrintableNotSpace(c: char)
    requires '!' <= c <= '~'
    ensures !IsSpace(c)
  {
  }

  /** The explicit class `[A-Za-z0-9_]`. */
  predicate IsIdentChar(c: char) {
    ('A' <= c <= 'Z') || ('a' <= c <= 'z') || ('0' <= c <= '9') || c == '_'
  }

  /** The class `\w`, restricted to ASCII: Python also counts non-ASCII
      letters and digits as word characters. */
  predicate IsWordChar(c: char) {
    IsIdentChar(c)
  }

  predicate IsUpper(c: char) {
    'A' <= c <= 'Z'
  }

  /** ASCII lower-casing of one character: a capital letter becomes the
      small letter 32 code points above it, anything else is kept. */
  function LowerChar(c: char): (r: char)
    ensures IsUpper(c) ==> 'a' <= r <= 'z' && r as int == c as int - 'A' as int + 'a' as int
    ensures !IsUpper(c) ==> r == c
    ensures !IsUpper(r)
  {
    if IsUpper(c) then (c as int - 'A' as int + 'a' as int) as char else c
  }

  /** `str.lower()` on ASCII letters: same length, no capital letter left, and
      each character either kept or a capital turned into its small letter. */
  function Lower(s: string): (r: string)
    ensures |r| == |s|
    ensures forall i | 0 <= i < |s| :: !IsUpper(r[i])
    ensures forall i | 0 <= i < |s| ::
      if IsUpper(s[i]) then r[i] as int == s[i] as int + 32 else r[i] == s[i]
  {
    seq(|s|, i requires 0 <= i < |s| => LowerChar(s[i]))
  }

  /** Lower-casing leaves a string alone exactly when it has no capital letter. */
  lemma {:induction false} LowerFixedExactly(s: string)
    ensures Lower(s) == s <==> forall i | 0 <= i < |s| :: !IsUpper(s[i])
  {
    if forall i | 0 <= i < |s| :: !IsUpper(s[i]) {
      assert forall i | 0 <= i < |s| :: Lower(s)[i] == s[i];
    } else {
      var i :| 0 <= i < |s| && IsUpper(s[i]);
      assert Lower(s)[i] != s[i];
    }
  }

  /** Lower-casing twice is lower-casing once. */
  lemma {:induction false} LowerIdempotent(s: string)
    ensures Lower(Lower(s)) == Lower(s)
  {
    LowerFixedExactly(Lower(s));
  }

  predicate StartsWith(s: string, prefix: string) {
    |prefix| <= |s| && s[..|prefix|] == prefix
  }

  predicate EndsWith(s: string, suffix: string) {
    |suffix| <= |s| && s[|s| - |suffix|..] == suffix
  }

  /** Two concatenations that agree and split at the same length have equal parts. */
  lemma {:induction false} ConcatCancel(a: string, b: string, c: string, d: string)
    requires a + b == c + d && |a| == |c|
    ensures a == c && b == d
  {
    assert a == (a + b)[..|a|] && c == (c + d)[..|c|];
    assert b == (a + b)[|a|..] && d == (c + d)[|c|..];
  }

  ghost predicate AllSpace(s: string) {
    forall i | 0 <= i < |s| :: IsSpace(s[i])
  }

  /** Neither the first nor the last character is whitespace. */
  predicate Trimmed(s: string) {
    s == [] || (!IsSpace(s[0]) && !IsSpace(s[|s| - 1]))
  }

  /** `r` is `s` with its leading and trailing whitespace cut off: the
      characterisation of `str.strip()` against which `Strip` is proved. */
  ghost predicate IsStripOf(s: string, r: string) {
    exists i, j | 0 <= i <= j <= |s| ::
      r == s[i..j] && AllSpace(s[..i]) && AllSpace(s[j..]) && Trimmed(r)
  }

  /** A cut at `i` and `j` with whitespace outside and none at the ends of
      the middle part witnesses `IsStripOf`. */
  lemma {:induction false} StripOfWitness(s: string, i: nat, j: nat)
    requires i <= j <= |s|
    requires AllSpace(s[..i]) && AllSpace(s[j..]) && Trimmed(s[i..j])
    ensures IsStripOf(s, s[i..j])
  {
  }

  /** `str.lstrip()`. */
  function TrimStart(s: string): string
  {
    if s != [] && IsSpace(s[0]) then TrimStart(s[1..]) else s
  }

  /** `str.rstrip()`. */
  function TrimEnd(s: string): string
  {
    if s != [] && IsSpace(s[|s| - 1]) then TrimEnd(s[..|s| - 1]) else s
  }

  /** `TrimStart` cuts off a whitespace prefix and stops at a non-space. */
  lemma {:induction false} TrimStartSpec(s: string)
    ensures var r := TrimStart(s);
      && |r| <= |s| && r == s[|s| - |r|..]
      && AllSpace(s[..|s| - |r|])
      && (r == [] || !IsSpace(r[0]))
  {
    if s != [] && IsSpace(s[0]) {
      TrimStartSpec(s[1..]);
      var r := TrimStart(s[1..]);
      assert s[1..][..|s| - 1 - |r|] == s[1..|s| - |r|];
    }
  }

  /** `TrimEnd` cuts off a whitespace suffix and stops at a non-space. */
  lemma {:induction false} TrimEndSpec(s: string)
    ensures var r := TrimEnd(s);
      && |r| <= |s| && r == s[..|r|]
      && AllSpace(s[|r|..])
      && (r == [] || !IsSpace(r[|r| - 1]))
  {
    if s != [] && IsSpace(s[|s| - 1]) {
      TrimEndSpec(s[..|s| - 1]);
      var r := TrimEnd(s[..|s| - 1]);
      assert s[|r|..] == s[..|s| - 1][|r|..] + [s[|s| - 1]];
    }
  }

  /** `str.strip()`. */
  function Strip(s: string): (r: string)
    ensures Trimmed(r)
    ensures |r| <= |s|
  {
    TrimStartSpec(s);
    TrimEndSpec(TrimStart(s));
    TrimEnd(TrimStart(s))
  }

  /** `Strip` cuts off exactly the leading and trailing whitespace. */
  lemma {:induction false} StripIsStripOf(s: string)
    ensures IsStripOf(s, Strip(s))
  {
    var t := TrimStart(s);
    var r := TrimEnd(t);
    TrimStartSpec(s);
    TrimEndSpec(t);
    var i := |s| - |t|;
    assert r == s[i..i + |r|];
    assert AllSpace(s[i + |r|..]) by {
      assert s[i + |r|..] == t[|r|..];
    }
  }

  lemma {:induction false} SpacePrefixBound(s: string, i: nat, k: nat)
    requires i <= |s| && AllSpace(s[..i])
    requires k < |s| && !IsSpace(s[k])
    ensures i <= k
  {

  }

  lemma {:induction false} SpaceSuffixBound(s: string, j: nat, k: nat)
    requires j <= |s| && AllSpace(s[j..])
    requires k < |s| && !IsSpace(s[k])
    ensures k < j
  {

  }

  /** Two cuts that both satisfy the characterisation cut out the same string. */
  lemma {:induction false} StripCutsAgree(s: string, i1: nat, j1: nat, i2: nat, j2: nat)
    requires i1 <= j1 <= |s| && AllSpace(s[..i1]) && AllSpace(s[j1..]) && Trimmed(s[i1..j1])
    requires i2 <= j2 <= |s| && AllSpace(s[..i2]) && AllSpace(s[j2..]) && Trimmed(s[i2..j2])
    ensures s[i1..j1] == s[i2..j2]
  {
    if i1 < j1 {
      assert !IsSpace(s[i1]) && !IsSpace(s[j1 - 1]);
      SpacePrefixBound(s, i2, i1);
      SpaceSuffixBound(s, j2, j1 - 1);
    }
    if i2 < j2 {
      assert !IsSpace(s[i2]) && !IsSpace(s[j2 - 1]);
      SpacePrefixBound(s, i1, i2);
      SpaceSuffixBound(s, j1, j2 - 1);
    }
  }

  /** The characterisation determines the stripped string uniquely. */
  lemma {:induction false} StripOfUnique(s: string, r1: string, r2: string)
    requires IsStripOf(s, r1) && IsStripOf(s, r2)
    ensures r1 == r2
  {
    var i1, j1 :| 0 <= i1 <= j1 <= |s| && r1 == s[i1..j1] && AllSpace(s[..i1]) && AllSpace(s[j1..]) && Trimmed(r1);
    var i2, j2 :| 0 <= i2 <= j2 <= |s| && r2 == s[i2..j2] && AllSpace(s[..i2]) && AllSpace(s[j2..]) && Trimmed(r2);
    StripCutsAgree(s, i1, j1, i2, j2);
  }

  /** `Strip` is exactly `str.strip()`: it returns the one string that the
      characterisation admits. */
  lemma {:induction false} StripCharacterised(s: string, r: string)
    ensures IsStripOf(s, r) <==> r == Strip(s)
  {
    StripIsStripOf(s);
    if IsStripOf(s, r) {
      StripOfUnique(s, r, Strip(s));
    }
  }

  /** A string without outer whitespace is its own stripped form. */
  lemma {:induction false} StripTrimmed(s: string)
    requires Trimmed(s)
    ensures Strip(s) == s
  {
    assert s[0..|s|] == s;
    assert IsStripOf(s, s) by {
      assert s[..0] == [] && s[|s|..] == [];
    }
    StripIsStripOf(s);
    StripOfUnique(s, s, Strip(s));
  }

  /** Stripping twice is stripping once. */
  lemma {:induction false} StripIdempotent(s: string)
    ensures Strip(Strip(s)) == Strip(s)
  {
    StripTrimmed(Strip(s));
  }
}
